=== FILE: README.md ===
# CATrix backend core, modelled in Dafny

CATrix is an exam-practice platform. This project models the core of its
Express + Prisma backend:

- the bearer-token middleware, in a fail-closed and a fail-open variant;
- the authentication routes: register, login, guest, verify and Google sign-in;
- the test catalogue;
- test attempts: start, fetch, partial update with answer upserts, and listing;
- per-user analytics.

The model states what each handler answers and what it writes, and proves
properties of them: token round trips, running totals, ordering and the
store's invariants.

Layout, one module per source concern:

| file | module | models |
|---|---|---|
| `common.dfy` | `Common` | `Option`, JavaScript truthiness (`x \|\| default`), `String.prototype.split` on one character |
| `crypto.dfy` | `Crypto` | `jsonwebtoken` and `bcrypt` as uninterpreted functions; the two `JWT_SECRET` fallbacks |
| `db.dfy` | `Db` | the tables as records and the response bodies; the `Store` class that stands in for the database; `orderBy: { createdAt: 'desc' }` |
| `middleware.dfy` | `Middleware` | `backend/src/middleware/auth.ts` |
| `auth_routes.dfy` | `AuthRoutes` | `backend/src/routes/auth.ts` |
| `test_attempts.dfy` | `TestAttemptRoutes` | `backend/src/routes/testAttempts.ts` |
| `analytics.dfy` | `AnalyticsRoutes` | `backend/src/routes/analytics.ts` |
| `tests_routes.dfy` | `TestRoutes` | `backend/src/routes/tests.ts` |

How the pieces are modelled:

- **The database** is a `Store` object with one map per table. Handlers that
  write are methods, each with a `modifies` clause naming only the tables it
  touches. Handlers that only read are functions, except the three listings
  sorted by `createdAt` (`TestRoutes.ListTests`, `TestAttemptRoutes.ListForUser`,
  `AnalyticsRoutes.RecentTests`): they are methods that change nothing,
  because the sort, `Db.NewestFirst`, is a method with a loop.
- **Ids, the clock and the guest suffix** are passed in as parameters. These
  are the database's fresh ids, `new Date()`, and the random characters after
  `guest-`.
- **`JWT_SECRET`** is an `Option<string>`; the empty string counts as unset,
  as it does in JavaScript.
- **Token signing and password hashing** are uninterpreted functions. The
  properties assumed of them are written out as `Sound()` predicates. Every
  lemma that relies on one takes it as a hypothesis.
- **The `caller` parameter** of every route behind `authMiddleware` is the
  `userId` that `Middleware.Authenticate` sets.

Behaviours of the code worth knowing, which the model keeps as written:

- **Login then verify.** Login tokens verify only when `JWT_SECRET` is set.
  Login, register and Google sign with `JWT_SECRET || 'dev-secret-key'`;
  verify and both middlewares check with `JWT_SECRET || 'secret'`.
  `AuthRoutes.LoginTokenRoundTrip` proves both cases. Guest tokens are signed
  with the `'secret'` fallback, so they verify either way.
- **Test creation.** The comment at `backend/src/routes/tests.ts:59` says
  admin only; the handler checks no role. `TestRoutes.PostTest` and
  `TestRoutes.GuestMayCreate` show that any verified token creates a test,
  including a guest's.
- **Accuracy denominator.** `accuracy` divides by `(totalTests + 1) * totalMarks`
  using only the current request's `totalMarks`. It is a percentage of the
  running total only while every submission uses the same `totalMarks`.

## Model

| member | source | states |
|---|---|---|
| Common.Split | backend/src/middleware/auth.ts:11 | `split` on one character always yields at least one field |
| Common.JoinSplit | backend/src/middleware/auth.ts:11 | joining the fields of a split with the separator gives back the original string |
| Common.SplitShape | backend/src/middleware/auth.ts:11 | the first field is the text before the first separator; there are two or more fields exactly when the separator occurs |
| Common.SplitAtFirst | backend/src/middleware/auth.ts:11 | splitting `a + sep + b`, where `a` has no separator, gives `[a]` followed by the fields of `b` |
| Crypto.SigningKey | backend/src/routes/auth.ts:39 | the key register, login (auth.ts:77) and google (auth.ts:162) sign with: `JWT_SECRET` when truthy, otherwise `'dev-secret-key'`; never empty |
| Crypto.VerifyingKey | backend/src/middleware/auth.ts:17 | the key both middlewares (line 33) and `/verify` (auth.ts:116) verify with, and guest tokens are signed with (auth.ts:97): `JWT_SECRET` when truthy, otherwise `'secret'`; never empty |
| Crypto.KeysAgreeIffSecretSet | backend/src/routes/auth.ts:37-41 | the signing key (`'dev-secret-key'` fallback) equals the verifying key (`'secret'` fallback) exactly when `JWT_SECRET` is set and non-empty |
| Crypto.SignedTokenVerifiesIffSecretSet | backend/src/middleware/auth.ts:17 | a token signed with the signing key verifies with the verifying key, returning its payload, when `JWT_SECRET` is set, and fails when it is not |
| Db.FindByEmail | backend/src/routes/auth.ts:19 | `findUnique` by email finds a user exactly when one has that email, and what it finds has that email |
| Db.NewestFirst | backend/src/routes/testAttempts.ts:140 | `orderBy createdAt desc` lists every row exactly once, with non-increasing `createdAt` |
| Db.PickNewest | backend/src/routes/testAttempts.ts:140 | the selection step of that sort returns a row with the largest `createdAt` among those left |
| Middleware.BearerToken | backend/src/middleware/auth.ts:11-15 | a token is extracted only from a header that contains a space; it is non-empty and has no space |
| Middleware.BearerTokenOfHeader | backend/src/middleware/auth.ts:11 | `<scheme> <token>` yields exactly `token`, whatever the scheme word |
| Middleware.NoSpaceNoToken | backend/src/middleware/auth.ts:11-14 | a header without a space yields no token |
| Middleware.DoubleSpaceNoToken | backend/src/middleware/auth.ts:11-14 | a double space after the scheme leaves the second field empty, so no token |
| Middleware.Authenticate | backend/src/middleware/auth.ts:9-26 | fails closed: no token gives 401 "No token provided" and invalid gives 401 "Invalid token", with `next` not called and the request unchanged; valid sets `userId` and `user` and calls `next` once |
| Middleware.AuthenticateOptional | backend/src/middleware/auth.ts:28-43 | fails open: calls `next` exactly once, never responds, and sets `userId` and `user` only when the token verifies |
| AuthRoutes.EmailPrefix | backend/src/routes/auth.ts:32 | `email.split('@')[0]` is the prefix before the first `@`, or the whole email when it has none |
| AuthRoutes.DisplayName | backend/src/routes/auth.ts:32 | a truthy `name` is used as given; otherwise the name is the longest prefix of the email without `@` (the whole email when it has none) |
| AuthRoutes.Registered | backend/src/routes/auth.ts:25-34 | the inserted user stores only the password hash; a truthy `name` is stored as given, otherwise the name is the email prefix, which has no `@`; the role is the schema default |
| AuthRoutes.Register | backend/src/routes/auth.ts:12-46 | 400 when email or password is missing; 400 "User already exists" for a taken email; otherwise inserts one user and answers 201 with a token without role; afterwards the email is taken and the same credentials log in |
| AuthRoutes.Login | backend/src/routes/auth.ts:56-84 | 400 when a field is missing; 401 "Invalid credentials" exactly when the email is unknown or the password does not match; 200 with the user and a role-carrying token exactly when both hold |
| AuthRoutes.Guest | backend/src/routes/auth.ts:94-101 | always 200 with the id `guest-<suffix>`, name Guest and role guest; the token is signed with the verifying key |
| AuthRoutes.Verify | backend/src/routes/auth.ts:111-132 | 401 for a missing or invalid token; a guest-role token answers from its claims without reading users; otherwise 401 "User not found", or 200 with the stored user |
| AuthRoutes.Provisioned | backend/src/routes/auth.ts:149-156 | a Google-provisioned user has an empty password and the given email; a truthy `name` is stored as given, otherwise the name is the email prefix |
| AuthRoutes.Google | backend/src/routes/auth.ts:138-169 | 400 without email or googleId; otherwise finds the user by email or inserts one, and answers 200 with a role-carrying token; an existing user is not modified |
| AuthRoutes.LoginTokenRoundTrip | backend/src/routes/auth.ts:75-79 | a login token, sent as `Bearer <token>`, verifies to the same user id and role when `JWT_SECRET` is set, and is rejected with 401 "Invalid token" when it is not |
| AuthRoutes.GuestTokenRoundTrip | backend/src/routes/auth.ts:95-99 | a guest token always verifies to the guest id and role, and the answer is the same for any users table |
| AuthRoutes.RegisterTokenRoundTrip | backend/src/routes/auth.ts:37-41 | a register token verifies to the stored user when `JWT_SECRET` is set and is rejected when it is not |
| TestAttemptRoutes.Gate | backend/src/routes/testAttempts.ts:47-54 | an unknown id is refused with 404 before ownership is checked; another user's attempt is refused with 403; a request passes exactly when the caller owns the attempt |
| TestAttemptRoutes.Started | backend/src/routes/testAttempts.ts:18-24 | a new attempt belongs to the caller and the given test, is `in_progress`, and has no score, time or completion stamp |
| TestAttemptRoutes.Create | backend/src/routes/testAttempts.ts:11-26 | 400 "testId is required" and nothing written when `testId` is falsy; otherwise exactly one attempt is inserted and returned with 201 |
| TestAttemptRoutes.AnswersOf | backend/src/routes/testAttempts.ts:42 | the included answers are exactly the stored answers of that attempt |
| TestAttemptRoutes.Fetch | backend/src/routes/testAttempts.ts:36-56 | the status is 404, 403 or 200 by the gate; 200 returns the attempt with its answers and its test |
| TestAttemptRoutes.ApplyPatch | backend/src/routes/testAttempts.ts:82-91 | owner, test and creation time never change; status is written only when truthy; score and timeTaken are written whenever defined, 0 and null included; `completedAt` is stamped exactly when the status becomes `completed` |
| TestAttemptRoutes.PatchIdempotent | backend/src/routes/testAttempts.ts:82-86 | applying the same patch twice at the same instant equals applying it once |
| TestAttemptRoutes.ReopenKeepsCompletedAt | backend/src/routes/testAttempts.ts:83-86 | a completed attempt can be set back to `in_progress`, and it keeps its old completion time |
| TestAttemptRoutes.UpsertKey | backend/src/routes/testAttempts.ts:98 | the upsert looks the record up by `qa.id` when it is truthy, and by the placeholder `'new'` otherwise |
| TestAttemptRoutes.Overwrite | backend/src/routes/testAttempts.ts:107-111 | the update branch rewrites only the three answer fields, each only when defined; id, attempt and question stay |
| TestAttemptRoutes.UpsertOne | backend/src/routes/testAttempts.ts:96-112 | one upsert keeps every stored key and adds at most the fresh id; when its key names a record, it adds nothing |
| TestAttemptRoutes.UpsertAll | backend/src/routes/testAttempts.ts:94-114 | the upserts in array order keep every stored key |
| TestAttemptRoutes.UpsertAllBound | backend/src/routes/testAttempts.ts:94-114 | the upserts add no key other than the fresh ids, so at most one record per entry |
| TestAttemptRoutes.SaveAnswers | backend/src/routes/testAttempts.ts:94-114 | the loop leaves the answers table exactly as the in-order upserts of all entries make it, every record still under its own id |
| TestAttemptRoutes.UpsertOneEffect | backend/src/routes/testAttempts.ts:96-112 | one upsert keeps every stored record with its id, attempt and question and changes no record except the one its key names; a named record becomes the stored one with the entry's defined answer fields; otherwise a new record for the patched attempt, with the entry's question and answer fields, is created under the fresh id |
| TestAttemptRoutes.UpsertAllKeeps | backend/src/routes/testAttempts.ts:94-114 | the upsert loop keeps every stored record with its id, attempt and question |
| TestAttemptRoutes.UpsertAllAdds | backend/src/routes/testAttempts.ts:94-114 | every record the loop adds has a fresh id and belongs to the patched attempt |
| TestAttemptRoutes.UpsertAllUntouched | backend/src/routes/testAttempts.ts:94-114 | a stored record named by no entry is left exactly as it was |
| TestAttemptRoutes.IdLessAnswersAllInsert | backend/src/routes/testAttempts.ts:98 | entries without an id, keyed `'new'`, each insert their own record; the table grows by the number of entries |
| TestAttemptRoutes.UpsertIgnoresOwnership | backend/src/routes/testAttempts.ts:96-111 | an entry naming another attempt's record overwrites that record's answer, and the record stays with the other attempt |
| TestAttemptRoutes.Update | backend/src/routes/testAttempts.ts:66-116 | a refused request writes nothing; otherwise the attempt becomes its patched value and the answers table becomes the in-order upsert of the entries, proved through the loop invariant |
| TestAttemptRoutes.BriefOf | backend/src/routes/testAttempts.ts:130-138 | the included test is present exactly when it is stored, and carries its id, title, section and duration |
| TestAttemptRoutes.OwnedBy | backend/src/routes/testAttempts.ts:129 | exactly the stored attempts whose `userId` is the caller |
| TestAttemptRoutes.OwnNewestFirst | backend/src/routes/testAttempts.ts:128-141 | each of the caller's attempts exactly once, nobody else's, newest first |
| TestAttemptRoutes.ListForUser | backend/src/routes/testAttempts.ts:126-143 | 200 with the caller's attempts newest first, each with the id, title, section and duration of its test |
| AnalyticsRoutes.Fresh | backend/src/routes/analytics.ts:19-21 | a lazily created row belongs to the caller and has every total and ratio at zero |
| AnalyticsRoutes.Updated | backend/src/routes/analytics.ts:70-79 | totals grow by one test, `score \|\| 0` and `timeTaken \|\| 0`; with a truthy `totalMarks`, averageScore × tests = total score and accuracy × (tests × totalMarks) = 100 × total score; otherwise both ratios are kept |
| AnalyticsRoutes.WorkedExample | backend/src/routes/analytics.ts:73-77 | 80/100 in 30 and then 60/100 in 20 give 1/80/30 with 80 and 80, then 2/140/50 with 70 and 70 |
| AnalyticsRoutes.TotalsMonotone | backend/src/routes/analytics.ts:73-75 | with non-negative score and time, no total decreases and the test count strictly increases |
| AnalyticsRoutes.NegativeScoreLowersTotal | backend/src/routes/analytics.ts:74 | the handler accepts a negative score, and it lowers the total score |
| AnalyticsRoutes.ReplayTotals | backend/src/routes/analytics.ts:73-75 | after any sequence of updates, the totals are the start totals plus the count and the sums of what was submitted |
| AnalyticsRoutes.ReplayRatios | backend/src/routes/analytics.ts:76-77 | if the last update carried `totalMarks`, averageScore is the running total over the running count, and accuracy is that total as a percentage of count × last `totalMarks` |
| AnalyticsRoutes.ReplayFromFresh | backend/src/routes/analytics.ts:73-77 | from a fresh row, the test count is the number of submissions and averageScore × that count = sum of all submitted scores |
| AnalyticsRoutes.StaleWithoutTotalMarks | backend/src/routes/analytics.ts:76-77 | without `totalMarks` the ratios go stale: a score of 50 leaves averageScore at 0 |
| AnalyticsRoutes.CurrentRow | backend/src/routes/analytics.ts:59-67 | the row read is the caller's stored row when there is one, and otherwise the fresh row lazy creation inserts for the caller |
| AnalyticsRoutes.GetOrCreate | backend/src/routes/analytics.ts:13-22 | returns the caller's row, inserting a fresh one only when none exists; rows of other users are unchanged |
| AnalyticsRoutes.Fetch | backend/src/routes/analytics.ts:11-24 | 200 with the caller's row; afterwards the caller has a row, and a repeated call changes nothing |
| AnalyticsRoutes.Update | backend/src/routes/analytics.ts:55-81 | only the caller's row changes, to the update of its current or fresh row; 200 returns it |
| AnalyticsRoutes.RecentTests | backend/src/routes/analytics.ts:34-45 | at most five of the caller's attempts, all five when there are that many, distinct, newest first; no attempt left out is newer than one listed; each comes with its full test |
| AnalyticsRoutes.NewestPrefix | backend/src/routes/analytics.ts:41-42 | the first `n` of a newest-first listing of the caller's attempts are distinct, newest first, and no attempt left out is newer than one kept |
| AnalyticsRoutes.WithTests | backend/src/routes/analytics.ts:38-40 | each attempt keeps its place and comes with its full test, or none when the test is gone |
| AnalyticsRoutes.DistinctCount | backend/src/routes/analytics.ts:42 | a duplicate-free listing of a set is exactly as long as the set is large, so `take: 5` returns five whenever there are five |
| TestRoutes.Public | backend/src/routes/tests.ts:36-42 | the projection keeps id, text, options, marks and explanation; it has no correct-answer field |
| TestRoutes.QuestionCount | backend/src/routes/tests.ts:14-16 | `_count.questions` is zero exactly when no stored question belongs to the test |
| TestRoutes.QuestionsOf | backend/src/routes/tests.ts:35-44 | the questions included for a test, in creation order, never more than are stored |
| TestRoutes.QuestionsOfMembers | backend/src/routes/tests.ts:32-46 | a projected question is listed exactly when a stored question of that test projects to it |
| TestRoutes.QuestionsOfAppend | backend/src/routes/tests.ts:34-45 | listing the questions over two runs of creation order lists those of the first run, then those of the second |
| TestRoutes.CountMatchesListing | backend/src/routes/tests.ts:14-16 | in a valid store, the catalogue count equals the number of questions GET `/:id` returns |
| TestRoutes.GetTest | backend/src/routes/tests.ts:30-52 | 404 "Test not found" exactly for an unknown id; otherwise 200 with the stored test itself |
| TestRoutes.GetTestServesItsQuestions | backend/src/routes/tests.ts:32-46 | GET `/:id` serves a projected question exactly when a stored question of that test projects to it |
| TestRoutes.GetTestCount | backend/src/routes/tests.ts:11-16 | in a valid store, GET `/:id` serves as many questions as the catalogue counts for that test |
| TestRoutes.SummariesOfSorted | backend/src/routes/tests.ts:11-18 | reading the tests back in sorted order lists each test once, newest first, with its own question count |
| TestRoutes.SummariesCover | backend/src/routes/tests.ts:11-18 | the catalogue read off the sorted ids holds every stored test, once, with its own question count |
| TestRoutes.SummariesNewestFirst | backend/src/routes/tests.ts:12 | the catalogue read off the sorted ids has non-increasing creation times |
| TestRoutes.Summaries | backend/src/routes/tests.ts:11-18 | the catalogue entry at each position is the test with that id and its question count |
| TestRoutes.ListTests | backend/src/routes/tests.ts:11-20 | 200 with every stored test exactly once, newest first, each with its question count |
| TestRoutes.WithQuestions | backend/src/routes/tests.ts:71-79 | the nested create keeps every stored question id |
| TestRoutes.WithQuestionsBound | backend/src/routes/tests.ts:71-79 | the nested create adds no key other than the assigned ids, so at most one row per input |
| TestRoutes.Row | backend/src/routes/tests.ts:72-78 | the inserted row has the assigned id, belongs to the new test, keeps the input's correct answer, and projects to the input's text, options, marks and explanation |
| TestRoutes.WithQuestionsShape | backend/src/routes/tests.ts:71-79 | with fresh, distinct ids, the nested create adds exactly one row per input, under its id, and leaves every stored question as it was |
| TestRoutes.NewQuestionsListed | backend/src/routes/tests.ts:71-79 | rows stored under the new ids, each built from its input, are listed in input order as the inputs without their answers |
| TestRoutes.InsertedListing | backend/src/routes/tests.ts:64-81 | after the insert, the new test lists exactly its new questions, in input order, without their answers |
| TestRoutes.InsertKeepsValid | backend/src/routes/tests.ts:64-81 | inserting the test with its questions keeps every question attached to a stored test and listed once in creation order |
| TestRoutes.Insert | backend/src/routes/tests.ts:64-81 | the nested create adds the test and exactly its new questions, appends their ids to the creation order, keeps the store valid, and reading the test back gives the inputs in order without answers |
| TestRoutes.CreateFails | backend/src/routes/tests.ts:62-86 | the condition under which POST `/api/tests` answers 500 before writing: `questions.map` throws on a missing `questions` list, and a missing scalar field fails the insert under the required-column assumption named under "## Left out" |
| TestRoutes.CreateTest | backend/src/routes/tests.ts:62-87 | 500 "Failed to create test" and nothing written when `questions` or a required field is missing; otherwise 201 with the test; exactly the test and its questions are inserted, and reading it back gives the inputs in order without answers |
| TestRoutes.PostTest | backend/src/routes/tests.ts:60-87 | behind the fail-closed middleware: an invalid or missing token leaves the tests, the questions and their creation order unchanged and answers 401; a verified token with an incomplete body answers 500 "Failed to create test" and leaves the tables unchanged; any verified token with a complete body creates the test and answers 201, with no role check |
| TestRoutes.GuestMayCreate | backend/src/routes/tests.ts:60 | a guest's token passes the middleware with its guest claims, so guests can create tests |

## Left out

- Token expiry (`expiresIn`) is not modelled: `verify` is a function of token and key only.
- bcrypt's cost factor (10 rounds) and its random salt: the salt is a parameter.
- The random guest suffix (`Math.random().toString(36)`) is a parameter of `AuthRoutes.Guest`. Its length and alphabet are not modelled.
- The clock (`new Date()`, `createdAt` defaults) is a parameter `now`.
- Floating point: `accuracy` and `averageScore` are exact reals. Rounding of JavaScript numbers is not modelled.
- Concurrency: each handler runs atomically. The read-then-write race in the analytics update and the upsert loop is not modelled.
- Logging (`console.error`) is not modelled.
- The generic 500 responses of each handler's `catch` are not modelled, except the 500 of POST `/api/tests`.
- Foreign keys and field types of the database schema are not modelled (the schema is not part of this model). An attempt for a non-existent test, or an answer for a non-existent question, is inserted as if it were valid.
- Per-question field validation in POST `/api/tests` is not modelled: a question input always has all its fields.
- `null` versus `undefined` is distinguished only for `score` and `timeTaken` in PATCH `/api/test-attempts/:id`. In answer entries, `null` is treated like `undefined`.
- `TestRoutes.CreateTest`: assumes that `title`, `section`, `difficulty`, `duration` and `totalMarks` are required columns without defaults, so a missing one makes `prisma.test.create` fail with 500; the schema is not part of this model, and if one of them is optional or defaulted the handler answers 201 where the model answers 500. Only the missing `questions` case follows from the handler itself (`questions.map` throws).
- `TestRoutes.QuestionsOf`: the database returns included questions in an unspecified order; the model uses creation order.
- `Middleware.Authenticate`, `Middleware.AuthenticateOptional`: both middlewares call `next()` inside their `try`, so an exception thrown by `next()` would answer 401 "Invalid token" after `userId` was set (fail-closed) or call `next` a second time (fail-open); the model assumes `next` does not throw.
- `TestRoutes.PostTest`: when the test is created, its contract states the status of the response and that the test is stored, not the whole new state; `TestRoutes.CreateTest` states that.
- The routes for colleges and study materials, the server entry point, the seed scripts and the global type declarations are not part of this model.

=== FILE: analytics.dfy ===
/** The `/api/analytics` routes: the caller's aggregate row, created lazily,
    the caller's five most recent attempts, and the update after a completed
    test. Behind the fail-closed middleware, so `caller` is a verified user id.
    The two ratios are exact reals here, not JavaScript doubles. */
module AnalyticsRoutes {
  import opened Common
  import opened Db
  import opened TestAttemptRoutes

  /** The body of POST `/update`; `testId` is read and never used. */
  datatype Submission = Submission(testId: Option<string>, score: Option<int>, totalMarks: Option<int>, timeTaken: Option<int>)

  /** The row the database creates for a user on first access: every total
      and ratio at its schema default of zero. */
  function Fresh(rowId: Id, caller: Id): (row: AnalyticsRow)
    ensures row.userId == caller && row.totalTests == 0 && row.totalScore == 0 && row.totalTimeSpent == 0
    ensures row.accuracy == 0.0 && row.averageScore == 0.0
  {
    AnalyticsRow(rowId, caller, 0, 0, 0, 0.0, 0.0)
  }

  /** The row POST `/update` writes, computed from the row it read. */
  function Updated(row: AnalyticsRow, s: Submission): (r: AnalyticsRow)
    ensures r.id == row.id && r.userId == row.userId
    ensures r.totalTests == row.totalTests + 1
    ensures r.totalScore == row.totalScore + OrZero(s.score)
    ensures r.totalTimeSpent == row.totalTimeSpent + OrZero(s.timeTaken)
    // with `totalMarks`, both ratios are recomputed from the new totals
    ensures TruthyInt(s.totalMarks) ==>
      && r.averageScore * (r.totalTests as real) == r.totalScore as real
      && r.accuracy * ((r.totalTests * s.totalMarks.value) as real) == 100.0 * (r.totalScore as real)
    // without it, both keep their old values
    ensures !TruthyInt(s.totalMarks) ==> r.accuracy == row.accuracy && r.averageScore == row.averageScore
  {
    var tests := row.totalTests + 1;
    var score := row.totalScore + OrZero(s.score);
    var accuracy :=
      if TruthyInt(s.totalMarks) then Ratio(score, tests * s.totalMarks.value) * 100.0 else row.accuracy;
    var average := if TruthyInt(s.totalMarks) then Ratio(score, tests) else row.averageScore;
    AnalyticsRow(row.id, row.userId, tests, score, row.totalTimeSpent + OrZero(s.timeTaken), accuracy, average)
  }

  /** Exact division. */
  function Ratio(numerator: int, denominator: int): (q: real)
    requires denominator != 0
    ensures q * (denominator as real) == numerator as real
  {
    (numerator as real) / (denominator as real)
  }

  /** Two submissions on a fresh row: 80/100 in 30 minutes, then 60/100 in 20. */
  lemma WorkedExample(rowId: Id, caller: Id)
    ensures
      var first := Updated(Fresh(rowId, caller), Submission(None, Some(80), Some(100), Some(30)));
      var second := Updated(first, Submission(None, Some(60), Some(100), Some(20)));
      && first.totalTests == 1 && first.totalScore == 80 && first.totalTimeSpent == 30
      && first.accuracy == 80.0 && first.averageScore == 80.0
      && second.totalTests == 2 && second.totalScore == 140 && second.totalTimeSpent == 50
      && second.accuracy == 70.0 && second.averageScore == 70.0
  {
  }

  /** The totals never shrink, but only because scores and times are
      non-negative: the handler does not check that. */
  lemma TotalsMonotone(row: AnalyticsRow, s: Submission)
    requires s.score.Some? ==> s.score.value >= 0
    requires s.timeTaken.Some? ==> s.timeTaken.value >= 0
    ensures Updated(row, s).totalTests > row.totalTests
    ensures Updated(row, s).totalScore >= row.totalScore
    ensures Updated(row, s).totalTimeSpent >= row.totalTimeSpent
  {
  }

  /** A negative score lowers the total score. */
  lemma NegativeScoreLowersTotal(row: AnalyticsRow, s: Submission)
    requires s.score.Some? && s.score.value < 0
    ensures Updated(row, s).totalScore < row.totalScore
  {
  }

  /** The rows after each submission of `subs`, in order. */
  function Replay(row: AnalyticsRow, subs: seq<Submission>): AnalyticsRow {
    if subs == [] then row else Updated(Replay(row, subs[..|subs| - 1]), subs[|subs| - 1])
  }

  function SumScores(subs: seq<Submission>): int {
    if subs == [] then 0 else SumScores(subs[..|subs| - 1]) + OrZero(subs[|subs| - 1].score)
  }

  function SumTimes(subs: seq<Submission>): int {
    if subs == [] then 0 else SumTimes(subs[..|subs| - 1]) + OrZero(subs[|subs| - 1].timeTaken)
  }

  /** After any run of updates the totals are the counts and sums of what
      was submitted: they are running totals, whatever `totalMarks` said. */
  lemma {:induction false} ReplayTotals(row: AnalyticsRow, subs: seq<Submission>)
    ensures Replay(row, subs).userId == row.userId
    ensures Replay(row, subs).totalTests == row.totalTests + |subs|
    ensures Replay(row, subs).totalScore == row.totalScore + SumScores(subs)
    ensures Replay(row, subs).totalTimeSpent == row.totalTimeSpent + SumTimes(subs)
  {
    if subs != [] {
      ReplayTotals(row, subs[..|subs| - 1]);
    }
  }

  /** If the last submission carried `totalMarks`, then `averageScore` is
      the row's total score over its test count, the mean of everything it
      has counted, and `accuracy` is that total as a percentage of all those
      tests taken at that last `totalMarks`; the totals are the running sums. */
  lemma ReplayRatios(row: AnalyticsRow, subs: seq<Submission>)
    requires subs != [] && TruthyInt(subs[|subs| - 1].totalMarks)
    ensures var r := Replay(row, subs);
      && r.totalTests == row.totalTests + |subs|
      && r.totalScore == row.totalScore + SumScores(subs)
      && r.averageScore * (r.totalTests as real) == r.totalScore as real
      && r.accuracy * ((r.totalTests * subs[|subs| - 1].totalMarks.value) as real) == 100.0 * (r.totalScore as real)
  {
    ReplayTotals(row, subs);
    var last := subs[|subs| - 1];
    var r := Updated(Replay(row, subs[..|subs| - 1]), last);
    assert Replay(row, subs) == r;
    assert r.averageScore * (r.totalTests as real) == r.totalScore as real;
    assert r.accuracy * ((r.totalTests * last.totalMarks.value) as real) == 100.0 * (r.totalScore as real);
  }

  /** From a fresh row: the row counts every submission, and `averageScore`
      is the mean of all submitted scores. */
  lemma ReplayFromFresh(rowId: Id, caller: Id, subs: seq<Submission>)
    requires subs != [] && TruthyInt(subs[|subs| - 1].totalMarks)
    ensures var r := Replay(Fresh(rowId, caller), subs);
      && r.totalTests == |subs|
      && r.averageScore * (r.totalTests as real) == SumScores(subs) as real
  {
    ReplayRatios(Fresh(rowId, caller), subs);
  }

  /** Without `totalMarks` the ratios go stale: after a fresh row takes a
      score of 50 with no `totalMarks`, `averageScore` stays 0 while the mean is 50. */
  lemma StaleWithoutTotalMarks(rowId: Id, caller: Id)
    ensures
      var r := Updated(Fresh(rowId, caller), Submission(None, Some(50), None, Some(10)));
      r.totalScore == 50 && r.totalTests == 1 && r.averageScore == 0.0
  {
  }

  /** The row `caller` has, or the one lazy creation would insert. */
  function CurrentRow(analytics: map<Id, AnalyticsRow>, caller: Id, rowId: Id): (row: AnalyticsRow)
    ensures caller in analytics ==> row == analytics[caller]
    ensures caller !in analytics ==> row == Fresh(rowId, caller)
  {
    if caller in analytics then analytics[caller] else Fresh(rowId, caller)
  }

  /** `findFirst({ where: { userId } })`, then `create` when there is none:
      the get-or-create both handlers start with. `rowId` is the id the
      database would give a new row. */
  method GetOrCreate(db: Store, caller: Id, rowId: Id) returns (row: AnalyticsRow)
    requires db.Valid()
    modifies db`analytics
    ensures db.Valid()
    ensures row == CurrentRow(old(db.analytics), caller, rowId)
    ensures db.analytics == old(db.analytics)[caller := row]
    ensures caller in old(db.analytics) ==> db.analytics == old(db.analytics)
  {
    if caller in db.analytics {
      row := db.analytics[caller];
    } else {
      row := Fresh(rowId, caller);
      db.analytics := db.analytics[caller := row];
    }
  }

  /** GET `/`: a second call finds the row the first one created. */
  method Fetch(db: Store, caller: Id, rowId: Id) returns (r: Response)
    requires db.Valid()
    modifies db`analytics
    ensures db.Valid()
    ensures caller in db.analytics
    ensures r == Response(200, AnalyticsBody(db.analytics[caller]))
    ensures caller in old(db.analytics) ==> db.analytics == old(db.analytics) && r.body.row == old(db.analytics)[caller]
    ensures caller !in old(db.analytics) ==> db.analytics == old(db.analytics)[caller := Fresh(rowId, caller)]
  {
    var row := GetOrCreate(db, caller, rowId);
    r := Response(200, AnalyticsBody(row));
  }

  /** POST `/update`: only the caller's row changes. */
  method Update(db: Store, caller: Id, s: Submission, rowId: Id) returns (r: Response)
    requires db.Valid()
    modifies db`analytics
    ensures db.Valid()
    ensures db.analytics == old(db.analytics)[caller := Updated(CurrentRow(old(db.analytics), caller, rowId), s)]
    ensures r == Response(200, AnalyticsBody(db.analytics[caller]))
  {
    var row := GetOrCreate(db, caller, rowId);
    var updated := Updated(row, s);
    db.analytics := db.analytics[caller := updated];
    r := Response(200, AnalyticsBody(updated));
  }

  /** GET `/recent-tests`: at most five of the caller's attempts, newest first;
      no attempt left out is newer than one listed. */
  method RecentTests(db: Store, caller: Id) returns (r: Response)
    requires db.Valid()
    ensures r.status == 200 && r.body.RecentList?
    ensures var recent := r.body.recent;
      && |recent| == (if |OwnedBy(db.attempts, caller)| < 5 then |OwnedBy(db.attempts, caller)| else 5)
      && (forall i :: 0 <= i < |recent| ==> recent[i].attempt in OwnedBy(db.attempts, caller))
      && (forall i, j :: 0 <= i < j < |recent| ==> recent[i].attempt != recent[j].attempt)
      && (forall i, j :: 0 <= i < j < |recent| ==> recent[i].attempt.createdAt >= recent[j].attempt.createdAt)
      && (forall i, a :: 0 <= i < |recent| && a in OwnedBy(db.attempts, caller) && a !in AttemptsOf(recent) ==>
            a.createdAt <= recent[i].attempt.createdAt)
      && (forall i :: 0 <= i < |recent| ==>
            recent[i].test == (if recent[i].attempt.testId in db.tests then Some(db.tests[recent[i].attempt.testId]) else None))
  {
    var own := OwnNewestFirst(db, caller);
    var owned := OwnedBy(db.attempts, caller);
    DistinctCount(own, owned);
    var n := if |own| < 5 then |own| else 5;
    var recent := WithTests(own[..n], db.tests);
    NewestPrefix(owned, own, n, db.tests, recent);
    r := Response(200, RecentList(recent));
  }

  /** The first `n` of a duplicate-free, newest-first listing of `owned`,
      with their tests: no attempt left out is newer than one kept. */
  lemma NewestPrefix(owned: set<TestAttempt>, own: seq<TestAttempt>, n: nat, tests: map<Id, Test>, recent: seq<RecentAttempt>)
    requires Distinct(own) && n <= |own|
    requires forall i :: 0 <= i < |own| ==> own[i] in owned
    requires forall a :: a in owned ==> a in own
    requires forall i, j :: 0 <= i < j < |own| ==> own[i].createdAt >= own[j].createdAt
    requires recent == WithTests(own[..n], tests)
    ensures |recent| == n
    ensures forall i :: 0 <= i < |recent| ==> recent[i].attempt in owned
    ensures forall i, j :: 0 <= i < j < |recent| ==> recent[i].attempt != recent[j].attempt
    ensures forall i, j :: 0 <= i < j < |recent| ==> recent[i].attempt.createdAt >= recent[j].attempt.createdAt
    ensures forall i, a :: 0 <= i < |recent| && a in owned && a !in AttemptsOf(recent) ==>
      a.createdAt <= recent[i].attempt.createdAt
    ensures forall i :: 0 <= i < |recent| ==>
      recent[i].test == (if recent[i].attempt.testId in tests then Some(tests[recent[i].attempt.testId]) else None)
  {
    var top := own[..n];
    assert AttemptsOf(recent) == top;
    assert forall k :: 0 <= k < n ==> recent[k].attempt == top[k] == own[k];
    forall i, a | 0 <= i < n && a in owned && a !in top ensures a.createdAt <= own[i].createdAt {
      var j :| 0 <= j < |own| && own[j] == a;
      assert j >= n;
    }
  }

  /** Each attempt paired with its test, `include: { test: true }`. */
  function WithTests(top: seq<TestAttempt>, tests: map<Id, Test>): (recent: seq<RecentAttempt>)
    ensures AttemptsOf(recent) == top
    ensures forall i :: 0 <= i < |recent| ==>
      recent[i].test == (if recent[i].attempt.testId in tests then Some(tests[recent[i].attempt.testId]) else None)
  {
    var recent := seq(|top|, i requires 0 <= i < |top| =>
      WithTest(top[i], if top[i].testId in tests then Some(tests[top[i].testId]) else None));
    assert AttemptsOf(recent) == top;
    recent
  }

  /** A duplicate-free sequence that lists exactly the elements of a set is as long as the set is large. */
  lemma {:induction false} DistinctCount<T>(s: seq<T>, elems: set<T>)
    requires Distinct(s)
    requires forall i :: 0 <= i < |s| ==> s[i] in elems
    requires forall x :: x in elems ==> x in s
    ensures |s| == |elems|
  {
    if s != [] {
      var last := s[|s| - 1];
      var front := s[..|s| - 1];
      assert forall x :: x in elems - {last} ==> x in front by {
        forall x | x in elems - {last} ensures x in front {
          var i :| 0 <= i < |s| && s[i] == x;
          assert i < |s| - 1;
          assert front[i] == x;
        }
      }
      assert forall i :: 0 <= i < |front| ==> front[i] in elems - {last};
      DistinctCount(front, elems - {last});
    } else {
      assert forall x :: x !in elems;
    }
  }
}

=== FILE: auth_routes.dfy ===
/** The `/api/auth` routes: register, login, guest, verify and google. */
module AuthRoutes {
  import opened Common
  import opened Crypto
  import opened Db
  import opened Middleware

  /** The body of `/register` and `/login` (login ignores `name`). */
  datatype Credentials = Credentials(email: Option<string>, password: Option<string>, name: Option<string>)

  /** The body of `/google`; `picture` is read and never used. */
  datatype GoogleProfile = GoogleProfile(
    email: Option<string>, name: Option<string>, googleId: Option<string>, picture: Option<string>)

  const GuestRole: string := "guest"
  const GuestName: string := "Guest"

  /** `email.split('@')[0]`: the text before the first `@`, the whole email when it has none. */
  function EmailPrefix(email: string): (prefix: string)
    ensures prefix <= email
    ensures '@' !in prefix
    ensures '@' in email ==> email[|prefix|] == '@'
    ensures prefix == email <==> '@' !in email
  {
    SplitShape(email, '@');
    Split(email, '@')[0]
  }

  /** `name || email.split('@')[0]`: a given name as it is; otherwise the
      longest prefix of the email that has no `@`. */
  function DisplayName(name: Option<string>, email: string): (shown: string)
    ensures Truthy(name) ==> shown == name.value
    ensures !Truthy(name) ==> shown <= email && '@' !in shown
    ensures !Truthy(name) && '@' in email ==> email[|shown|] == '@'
    ensures !Truthy(name) && '@' !in email ==> shown == email
  {
    if Truthy(name) then name.value else EmailPrefix(email)
  }

  /** The user a successful `/register` inserts: the password only as its hash. */
  function Registered(db: Store, bcrypt: Bcrypt, c: Credentials, newId: Id, salt: string): (u: User)
    reads db
    requires Truthy(c.email) && Truthy(c.password)
    ensures u.id == newId && u.email == c.email.value && u.role == db.newUserRole
    ensures u.password == bcrypt.hash(c.password.value, salt)
    ensures Truthy(c.name) ==> u.name == c.name.value
    ensures !Truthy(c.name) ==> u.name == EmailPrefix(c.email.value) && '@' !in u.name
  {
    User(newId, c.email.value, bcrypt.hash(c.password.value, salt), DisplayName(c.name, c.email.value), db.newUserRole)
  }

  /** POST `/register`. */
  method Register(db: Store, bcrypt: Bcrypt, jwt: Jwt, env: Option<string>, c: Credentials, newId: Id, salt: string)
    returns (r: Response)
    requires db.Valid()
    requires newId !in db.users
    modifies db`users
    ensures db.Valid()
    ensures !Truthy(c.email) || !Truthy(c.password) ==>
      r == Response(400, ErrorBody("Email and password are required")) && db.users == old(db.users)
    ensures Truthy(c.email) && Truthy(c.password) && FindByEmail(old(db.users), c.email.value).Some? ==>
      r == Response(400, ErrorBody("User already exists")) && db.users == old(db.users)
    ensures Truthy(c.email) && Truthy(c.password) && FindByEmail(old(db.users), c.email.value).None? ==>
      var u := Registered(db, bcrypt, c, newId, salt);
      && db.users == old(db.users)[newId := u]
      && r == Response(201, AuthBody(UserView(u.id, Some(u.email), u.name, None),
                                     Some(jwt.sign(Claims(u.id, Some(u.email), None), SigningKey(env)))))
    // after a successful registration, the same email is taken and the same credentials log in
    ensures r.status == 201 ==> FindByEmail(db.users, c.email.value).Some?
    ensures r.status == 201 && bcrypt.Sound() ==> Login(db, bcrypt, jwt, env, c).status == 200
  {
    if !Truthy(c.email) || !Truthy(c.password) {
      return Response(400, ErrorBody("Email and password are required"));
    }
    var email := c.email.value;
    if FindByEmail(db.users, email).Some? {
      return Response(400, ErrorBody("User already exists"));
    }
    var u := Registered(db, bcrypt, c, newId, salt);
    db.users := db.users[newId := u];
    assert db.users[newId].email == email;
    var token := jwt.sign(Claims(u.id, Some(u.email), None), SigningKey(env));
    r := Response(201, AuthBody(UserView(u.id, Some(u.email), u.name, None), Some(token)));
  }

  /** POST `/login`: unknown email and wrong password answer alike. */
  function Login(db: Store, bcrypt: Bcrypt, jwt: Jwt, env: Option<string>, c: Credentials): (r: Response)
    reads db
    requires UniqueEmails(db.users)
    ensures !Truthy(c.email) || !Truthy(c.password) ==> r == Response(400, ErrorBody("Email and password are required"))
    ensures Truthy(c.email) && Truthy(c.password) ==>
      var found := FindByEmail(db.users, c.email.value);
      && (found.None? || !bcrypt.compare(c.password.value, found.value.password) <==> r == Response(401, ErrorBody("Invalid credentials")))
      && (r.status == 200 <==> found.Some? && bcrypt.compare(c.password.value, found.value.password))
    ensures r.status == 200 ==>
      var u := FindByEmail(db.users, c.email.value).value;
      r == Response(200, AuthBody(UserView(u.id, Some(u.email), u.name, Some(u.role)),
                                  Some(jwt.sign(Claims(u.id, Some(u.email), Some(u.role)), SigningKey(env)))))
  {
    if !Truthy(c.email) || !Truthy(c.password) then
      Response(400, ErrorBody("Email and password are required"))
    else
      match FindByEmail(db.users, c.email.value)
      case None => Response(401, ErrorBody("Invalid credentials"))
      case Some(u) =>
        if !bcrypt.compare(c.password.value, u.password) then Response(401, ErrorBody("Invalid credentials"))
        else
          var token := jwt.sign(Claims(u.id, Some(u.email), Some(u.role)), SigningKey(env));
          Response(200, AuthBody(UserView(u.id, Some(u.email), u.name, Some(u.role)), Some(token)))
  }

  /** POST `/guest`: `suffix` stands for the random base-36 characters; no user is stored. */
  function Guest(jwt: Jwt, env: Option<string>, suffix: string): (r: Response)
    ensures r.status == 200 && r.body.AuthBody?
    ensures r.body.user == UserView("guest-" + suffix, None, GuestName, Some(GuestRole))
    ensures r.body.token == Some(jwt.sign(Claims("guest-" + suffix, None, Some(GuestRole)), VerifyingKey(env)))
  {
    var guestId := "guest-" + suffix;
    Response(200, AuthBody(UserView(guestId, None, GuestName, Some(GuestRole)),
                           Some(jwt.sign(Claims(guestId, None, Some(GuestRole)), VerifyingKey(env)))))
  }

  /** POST `/verify`, given the `Authorization` header. */
  function Verify(db: Store, jwt: Jwt, env: Option<string>, authorization: Option<string>): (r: Response)
    reads db
    ensures BearerToken(authorization).None? ==> r == Response(401, ErrorBody("No token provided"))
    ensures BearerToken(authorization).Some? ==>
      var decoded := jwt.verify(BearerToken(authorization).value, VerifyingKey(env));
      && (decoded.None? ==> r == Response(401, ErrorBody("Invalid token")))
      && (decoded.Some? && decoded.value.role == Some(GuestRole) ==>
            r == Response(200, AuthBody(UserView(decoded.value.userId, None, GuestName, Some(GuestRole)), None)))
      && (decoded.Some? && decoded.value.role != Some(GuestRole) ==>
            var id := decoded.value.userId;
            && (id !in db.users ==> r == Response(401, ErrorBody("User not found")))
            && (id in db.users ==>
                  var u := db.users[id];
                  r == Response(200, AuthBody(UserView(u.id, Some(u.email), u.name, Some(u.role)), None))))
  {
    var token := BearerToken(authorization);
    if token.None? then Response(401, ErrorBody("No token provided"))
    else
      match jwt.verify(token.value, VerifyingKey(env))
      case None => Response(401, ErrorBody("Invalid token"))
      case Some(decoded) =>
        if decoded.role == Some(GuestRole) then
          Response(200, AuthBody(UserView(decoded.userId, None, GuestName, Some(GuestRole)), None))
        else if decoded.userId !in db.users then
          Response(401, ErrorBody("User not found"))
        else
          var u := db.users[decoded.userId];
          Response(200, AuthBody(UserView(u.id, Some(u.email), u.name, Some(u.role)), None))
  }

  /** The user `/google` creates for an unknown email: no password. */
  function Provisioned(db: Store, p: GoogleProfile, newId: Id): (u: User)
    reads db
    requires Truthy(p.email)
    ensures u.id == newId && u.email == p.email.value && u.password == "" && u.role == db.newUserRole
    ensures Truthy(p.name) ==> u.name == p.name.value
    ensures !Truthy(p.name) ==> u.name == EmailPrefix(p.email.value)
  {
    User(newId, p.email.value, "", DisplayName(p.name, p.email.value), db.newUserRole)
  }

  /** POST `/google`: find or create the user by email, then sign a token. */
  method Google(db: Store, jwt: Jwt, env: Option<string>, p: GoogleProfile, newId: Id) returns (r: Response)
    requires db.Valid()
    requires newId !in db.users
    modifies db`users
    ensures db.Valid()
    ensures !Truthy(p.email) || !Truthy(p.googleId) ==>
      r == Response(400, ErrorBody("Email and googleId are required")) && db.users == old(db.users)
    ensures Truthy(p.email) && Truthy(p.googleId) ==>
      var found := FindByEmail(old(db.users), p.email.value);
      var u := if found.Some? then found.value else Provisioned(db, p, newId);
      && db.users == (if found.Some? then old(db.users) else old(db.users)[newId := u])
      && r == Response(200, AuthBody(UserView(u.id, Some(u.email), u.name, Some(u.role)),
                                     Some(jwt.sign(Claims(u.id, Some(u.email), Some(u.role)), SigningKey(env)))))
  {
    if !Truthy(p.email) || !Truthy(p.googleId) {
      return Response(400, ErrorBody("Email and googleId are required"));
    }
    var found := FindByEmail(db.users, p.email.value);
    var u: User;
    if found.Some? {
      u := found.value;
    } else {
      u := Provisioned(db, p, newId);
      db.users := db.users[newId := u];
    }
    var token := jwt.sign(Claims(u.id, Some(u.email), Some(u.role)), SigningKey(env));
    r := Response(200, AuthBody(UserView(u.id, Some(u.email), u.name, Some(u.role)), Some(token)));
  }

  /** A login token, presented as `Bearer <token>`, verifies to the same user
      id and role when `JWT_SECRET` is set, and is rejected as invalid when it
      is not: login signs with `'dev-secret-key'` but verify falls back to `'secret'`. */
  lemma LoginTokenRoundTrip(db: Store, bcrypt: Bcrypt, jwt: Jwt, env: Option<string>, c: Credentials)
    requires jwt.Sound() && UsersValid(db.users)
    requires Login(db, bcrypt, jwt, env, c).status == 200
    ensures
      var login := Login(db, bcrypt, jwt, env, c);
      var v := Verify(db, jwt, env, Some("Bearer " + login.body.token.value));
      && (Truthy(env) ==> v.status == 200 && v.body.user.id == login.body.user.id && v.body.user.role == login.body.user.role)
      && (!Truthy(env) ==> v == Response(401, ErrorBody("Invalid token")))
  {
    var login := Login(db, bcrypt, jwt, env, c);
    var u := FindByEmail(db.users, c.email.value).value;
    var claims := Claims(u.id, Some(u.email), Some(u.role));
    var token := jwt.sign(claims, SigningKey(env));
    assert login.body.token.value == token;
    assert ' ' !in token && token != "";
    assert "Bearer " + token == "Bearer" + " " + token;
    assert ' ' !in "Bearer";
    BearerTokenOfHeader("Bearer", token);
    assert BearerToken(Some("Bearer " + token)) == Some(token);
    SignedTokenVerifiesIffSecretSet(jwt, env, claims);
  }

  /** A guest token verifies whether or not `JWT_SECRET` is set (it is signed
      with the verifying key), reports the guest id and role, and its answer
      does not depend on the users table at all. */
  lemma GuestTokenRoundTrip(db: Store, other: Store, jwt: Jwt, env: Option<string>, suffix: string)
    requires jwt.Sound()
    ensures
      var v := Verify(db, jwt, env, Some("Bearer " + Guest(jwt, env, suffix).body.token.value));
      && v == Response(200, AuthBody(UserView("guest-" + suffix, None, GuestName, Some(GuestRole)), None))
      && v == Verify(other, jwt, env, Some("Bearer " + Guest(jwt, env, suffix).body.token.value))
  {
    var token := Guest(jwt, env, suffix).body.token.value;
    assert ' ' !in token && token != "";
    assert "Bearer " + token == "Bearer" + " " + token;
    BearerTokenOfHeader("Bearer", token);
  }

  /** A register token verifies to the new user exactly when `JWT_SECRET` is set. */
  lemma RegisterTokenRoundTrip(db: Store, jwt: Jwt, env: Option<string>, u: User)
    requires jwt.Sound() && UsersValid(db.users) && u.id in db.users && db.users[u.id] == u
    ensures
      var v := Verify(db, jwt, env, Some("Bearer " + jwt.sign(Claims(u.id, Some(u.email), None), SigningKey(env))));
      && (Truthy(env) ==> v == Response(200, AuthBody(UserView(u.id, Some(u.email), u.name, Some(u.role)), None)))
      && (!Truthy(env) ==> v == Response(401, ErrorBody("Invalid token")))
  {
    var claims := Claims(u.id, Some(u.email), None);
    var token := jwt.sign(claims, SigningKey(env));
    assert ' ' !in token && token != "";
    assert "Bearer " + token == "Bearer" + " " + token;
    BearerTokenOfHeader("Bearer", token);
    SignedTokenVerifiesIffSecretSet(jwt, env, claims);
  }
}

=== FILE: common.dfy ===
/** Values shared by every part of the backend model: optional request fields,
    JavaScript truthiness of those fields, and JavaScript's `String.prototype.split`
    on a one-character separator. */
module Common {

  /** A JSON field that may be absent (`undefined`/`null`) or present. */
  datatype Option<+T> = None | Some(value: T)

  /** Record identifiers as the ORM hands them out. */
  type Id = string

  /** JavaScript truthiness of a string field: absent, null and "" are falsy. */
  predicate Truthy(s: Option<string>) {
    s.Some? && s.value != ""
  }

  /** JavaScript truthiness of a numeric field: absent, null and 0 are falsy. */
  predicate TruthyInt(n: Option<int>) {
    n.Some? && n.value != 0
  }

  /** `n || 0` on a numeric field. */
  function OrZero(n: Option<int>): int {
    if TruthyInt(n) then n.value else 0
  }

  predicate Distinct<T(==)>(s: seq<T>) {
    forall i, j :: 0 <= i < j < |s| ==> s[i] != s[j]
  }

  /** Index of the first `sep` in `s`, or `|s|` when there is none. */
  function FirstIndex(s: string, sep: char): (i: nat)
    ensures i <= |s|
    ensures sep !in s[..i]
    ensures i < |s| ==> s[i] == sep
    ensures i == |s| <==> sep !in s
  {
    if s == [] then 0
    else if s[0] == sep then 0
    else
      var k := FirstIndex(s[1..], sep);
      assert s[1..][..k] == s[1..k + 1];
      assert s[..k + 1] == [s[0]] + s[1..][..k];
      1 + k
  }

  /** `s.split(sep)` for a one-character separator: the fields between the
      occurrences of `sep`, always at least one (`"".split(" ")` is `[""]`). */
  function Split(s: string, sep: char): (fields: seq<string>)
    ensures |fields| >= 1
  {
    if s == [] then [""]
    else if s[0] == sep then [""] + Split(s[1..], sep)
    else
      var rest := Split(s[1..], sep);
      [[s[0]] + rest[0]] + rest[1..]
  }

  /** `fields.join(sep)`: the inverse of `Split`. */
  function Join(fields: seq<string>, sep: char): string
    requires |fields| >= 1
  {
    if |fields| == 1 then fields[0] else fields[0] + [sep] + Join(fields[1..], sep)
  }

  /** Splitting loses nothing: joining the fields back gives the input. */
  lemma {:induction false} JoinSplit(s: string, sep: char)
    ensures Join(Split(s, sep), sep) == s
  {
    if s != [] {
      JoinSplit(s[1..], sep);
      if s[0] == sep {
        JoinSplitAtSep(s, sep);
      } else {
        JoinSplitAtChar(s, sep);
      }
    }
  }

  /** The step of `JoinSplit` when the input starts with the separator. */
  lemma JoinSplitAtSep(s: string, sep: char)
    requires s != [] && s[0] == sep
    requires Join(Split(s[1..], sep), sep) == s[1..]
    ensures Join(Split(s, sep), sep) == s
  {
    var rest := Split(s[1..], sep);
    var fields := Split(s, sep);
    assert fields == [""] + rest;
    assert fields[1..] == rest;
    calc {
      Join(fields, sep);
      "" + [sep] + Join(rest, sep);
      [sep] + s[1..];
      s;
    }
  }

  /** The step of `JoinSplit` when the input starts with another character. */
  lemma JoinSplitAtChar(s: string, sep: char)
    requires s != [] && s[0] != sep
    requires Join(Split(s[1..], sep), sep) == s[1..]
    ensures Join(Split(s, sep), sep) == s
  {
    var rest := Split(s[1..], sep);
    assert Split(s, sep) == [[s[0]] + rest[0]] + rest[1..];
    JoinConsFirst(s[0], rest, sep);
    assert [s[0]] + s[1..] == s;
  }

  /** Putting a character in front of the first field puts it in front of the joined text. */
  lemma JoinConsFirst(c: char, fields: seq<string>, sep: char)
    requires |fields| >= 1
    ensures Join([[c] + fields[0]] + fields[1..], sep) == [c] + Join(fields, sep)
  {
    var moved := [[c] + fields[0]] + fields[1..];
    assert moved[1..] == fields[1..];
    if |fields| > 1 {
      calc {
        Join(moved, sep);
        ([c] + fields[0]) + [sep] + Join(fields[1..], sep);
        [c] + (fields[0] + [sep] + Join(fields[1..], sep));
      }
    }
  }

  /** No field contains the separator. */
  lemma {:induction false} SplitFieldsFree(s: string, sep: char)
    ensures forall i :: 0 <= i < |Split(s, sep)| ==> sep !in Split(s, sep)[i]
  {
    if s != [] {
      SplitFieldsFree(s[1..], sep);
      var rest := Split(s[1..], sep);
      if s[0] != sep {
        assert sep !in rest[0];
        assert forall c :: c in [s[0]] + rest[0] ==> c == s[0] || c in rest[0];
      }
    }
  }

  /** A string without the separator is a single field. */
  lemma {:induction false} SplitNoSep(s: string, sep: char)
    requires sep !in s
    ensures Split(s, sep) == [s]
  {
    if s != [] {
      assert s[0] in s;
      assert forall c :: c in s[1..] ==> c in s;
      SplitNoSep(s[1..], sep);
      assert s == [s[0]] + s[1..];
    }
  }

  /** The first separator cuts off the first field; the rest is split on its own. */
  lemma {:induction false} SplitAtFirst(a: string, b: string, sep: char)
    requires sep !in a
    ensures Split(a + [sep] + b, sep) == [a] + Split(b, sep)
  {
    var s := a + [sep] + b;
    if a == [] {
      assert s[1..] == b;
    } else {
      assert a[0] in a;
      assert forall c :: c in a[1..] ==> c in a;
      SplitAtFirst(a[1..], b, sep);
      assert s[1..] == a[1..] + [sep] + b;
      assert a == [a[0]] + a[1..];
    }
  }

  /** There is a second field exactly when the separator occurs; the first
      field is the text before the first separator. */
  lemma {:induction false} SplitShape(s: string, sep: char)
    ensures Split(s, sep)[0] == s[..FirstIndex(s, sep)]
    ensures |Split(s, sep)| >= 2 <==> sep in s
    ensures sep in s ==> Split(s, sep) == [s[..FirstIndex(s, sep)]] + Split(s[FirstIndex(s, sep) + 1..], sep)
  {
    var i := FirstIndex(s, sep);
    if sep in s {
      assert s == s[..i] + [sep] + s[i + 1..];
      SplitAtFirst(s[..i], s[i + 1..], sep);
      assert |Split(s, sep)| >= 2;
    } else {
      assert s[..i] == s;
      SplitNoSep(s, sep);
    }
  }
}

=== FILE: crypto.dfy ===
/** The two cryptographic libraries the backend calls, `jsonwebtoken` and
    `bcrypt`, as uninterpreted functions. Nothing is assumed about them except
    through the `Sound` predicates, which the lemmas that need them take as
    hypotheses. The secret keys are chosen from the `JWT_SECRET` environment
    variable, passed in as an optional string. */
module Crypto {
  import opened Common

  /** A token payload. Register signs `{userId, email}`, login and google sign
      `{userId, email, role}`, guest signs `{userId, role}`. */
  datatype Claims = Claims(userId: Id, email: Option<string>, role: Option<string>)

  /** `jwt.sign(payload, key)` and `jwt.verify(token, key)`; a failed
      verification (the library throws) is `None`. Expiry is not modelled. */
  datatype Jwt = Jwt(sign: (Claims, string) -> string, verify: (string, string) -> Option<Claims>) {

    /** Signing round-trips under the same key, fails under any other key,
        and produces a non-empty token without spaces (base64url text). */
    ghost predicate Sound() {
      && (forall c, key :: verify(sign(c, key), key) == Some(c))
      && (forall c, key, other :: key != other ==> verify(sign(c, key), other) == None)
      && (forall c, key :: sign(c, key) != "" && ' ' !in sign(c, key))
    }
  }

  /** `bcrypt.hash(password, rounds)` with its random salt made a parameter,
      and `bcrypt.compare(password, hash)`. */
  datatype Bcrypt = Bcrypt(hash: (string, string) -> string, compare: (string, string) -> bool) {

    /** A password matches every hash made of it. */
    ghost predicate Sound() {
      forall password, salt :: compare(password, hash(password, salt))
    }
  }

  const DevSigningSecret: string := "dev-secret-key"
  const FallbackSecret: string := "secret"

  /** `process.env.JWT_SECRET || 'dev-secret-key'`: the key register, login
      and google sign with. */
  function SigningKey(env: Option<string>): (key: string)
    ensures key != [] && (Truthy(env) ==> key == env.value)
  {
    if Truthy(env) then env.value else DevSigningSecret
  }

  /** `process.env.JWT_SECRET || 'secret'`: the key both middlewares and
      `/verify` verify with, and the key guest tokens are signed with. */
  function VerifyingKey(env: Option<string>): (key: string)
    ensures key != [] && (Truthy(env) ==> key == env.value)
  {
    if Truthy(env) then env.value else FallbackSecret
  }

  /** The two fallbacks differ, so the signing and verifying keys agree
      exactly when `JWT_SECRET` is set to a non-empty string. */
  lemma KeysAgreeIffSecretSet(env: Option<string>)
    ensures SigningKey(env) == VerifyingKey(env) <==> Truthy(env)
  {
    if !Truthy(env) {
      assert |DevSigningSecret| != |FallbackSecret|;
    }
  }

  /** A token signed with the signing key verifies with the verifying key,
      returning its payload, exactly when `JWT_SECRET` is set. */
  lemma SignedTokenVerifiesIffSecretSet(jwt: Jwt, env: Option<string>, c: Claims)
    requires jwt.Sound()
    ensures Truthy(env) ==> jwt.verify(jwt.sign(c, SigningKey(env)), VerifyingKey(env)) == Some(c)
    ensures !Truthy(env) ==> jwt.verify(jwt.sign(c, SigningKey(env)), VerifyingKey(env)) == None
  {
    KeysAgreeIffSecretSet(env);
  }
}

=== FILE: db.dfy ===
/** The persistence layer: one record type per table, the JSON bodies the
    handlers answer with, and the in-memory `Store` that stands in for the ORM
    client. Every table is a map from record id to record; the analytics table
    is indexed by the owning user's id, since the handlers only ever look a
    row up by user and create one only when none exists. */
module Db {
  import opened Common

  datatype User = User(id: Id, email: string, password: string, name: string, role: string)

  datatype Test = Test(
    id: Id, title: string, section: string, difficulty: string,
    duration: int, totalMarks: int, createdAt: int)

  datatype Question = Question(
    id: Id, testId: Id, questionText: string, options: seq<string>,
    correctAnswer: string, explanation: Option<string>, marks: int)

  datatype TestAttempt = TestAttempt(
    id: Id, userId: Id, testId: Id, status: string,
    score: Option<int>, timeTaken: Option<int>, completedAt: Option<int>, createdAt: int)

  datatype QuestionAttempt = QuestionAttempt(
    id: Id, testAttemptId: Id, questionId: Id,
    selectedAnswer: Option<string>, isCorrect: Option<bool>, timeTaken: Option<int>)

  datatype AnalyticsRow = AnalyticsRow(
    id: Id, userId: Id, totalTests: nat, totalScore: int, totalTimeSpent: int,
    accuracy: real, averageScore: real)

  /** The `user` object of an auth response; the fields a response leaves out are `None`. */
  datatype UserView = UserView(id: Id, email: Option<string>, name: string, role: Option<string>)

  /** The test as the attempt listing selects it: id, title, section and duration. */
  datatype TestBrief = TestBrief(id: Id, title: string, section: string, duration: int)

  /** A question as `GET /tests/:id` selects it. There is no field for the
      correct answer, so no response built from this type can carry one. */
  datatype PublicQuestion = PublicQuestion(
    id: Id, questionText: string, options: seq<string>, marks: int, explanation: Option<string>)

  /** An attempt with what `include`/`select` brought of its test. */
  datatype WithTest<T> = WithTest(attempt: TestAttempt, test: Option<T>)
  type ListedAttempt = WithTest<TestBrief>
  type RecentAttempt = WithTest<Test>

  /** The attempts of a listing, without their tests. */
  function AttemptsOf<T>(listed: seq<WithTest<T>>): (own: seq<TestAttempt>)
    ensures |own| == |listed| && forall i :: 0 <= i < |listed| ==> own[i] == listed[i].attempt
  {
    seq(|listed|, i requires 0 <= i < |listed| => listed[i].attempt)
  }
  datatype TestSummary = TestSummary(test: Test, questionCount: nat)

  /** The JSON body of a response. */
  datatype Body =
    | ErrorBody(error: string)
    | AttemptBody(attempt: TestAttempt)
    | AttemptDetail(attempt: TestAttempt, questionAttempts: set<QuestionAttempt>, ofTest: Option<Test>)
    | AttemptList(listed: seq<ListedAttempt>)
    | RecentList(recent: seq<RecentAttempt>)
    | AnalyticsBody(row: AnalyticsRow)
    | AuthBody(user: UserView, token: Option<string>)
    | TestList(summaries: seq<TestSummary>)
    | TestDetail(test: Test, questions: seq<PublicQuestion>)
    | TestBody(created: Test)

  datatype Response = Response(status: int, body: Body)

  /** Email is the users table's unique key. */
  ghost predicate UniqueEmails(users: map<Id, User>) {
    forall a, b :: a in users && b in users && users[a].email == users[b].email ==> a == b
  }

  ghost predicate UsersValid(users: map<Id, User>) {
    && (forall k :: k in users ==> users[k].id == k)
    && UniqueEmails(users)
  }

  /** Every question belongs to a stored test, and `order` lists every
      question exactly once, in the order the questions were created. */
  ghost predicate QuestionsValid(tests: map<Id, Test>, questions: map<Id, Question>, order: seq<Id>) {
    && (forall k :: k in tests ==> tests[k].id == k)
    && (forall k :: k in questions ==> questions[k].id == k && questions[k].testId in tests)
    && Distinct(order)
    && (forall i :: 0 <= i < |order| ==> order[i] in questions)
    && (forall k :: k in questions ==> k in order)
  }

  ghost predicate AttemptsValid(attempts: map<Id, TestAttempt>) {
    forall k :: k in attempts ==> attempts[k].id == k
  }

  ghost predicate AnswersValid(answers: map<Id, QuestionAttempt>) {
    forall k :: k in answers ==> answers[k].id == k
  }

  ghost predicate AnalyticsValid(analytics: map<Id, AnalyticsRow>) {
    forall u :: u in analytics ==> analytics[u].userId == u
  }

  /** The database behind the ORM client. `newUserRole` is the schema's
      default for `User.role`, which the handlers never set. */
  class Store {
    const newUserRole: string
    var users: map<Id, User>
    var tests: map<Id, Test>
    var questions: map<Id, Question>
    var questionOrder: seq<Id>
    var attempts: map<Id, TestAttempt>
    var questionAttempts: map<Id, QuestionAttempt>
    var analytics: map<Id, AnalyticsRow>

    ghost predicate Valid()
      reads this
    {
      && UsersValid(users)
      && QuestionsValid(tests, questions, questionOrder)
      && AttemptsValid(attempts)
      && AnswersValid(questionAttempts)
      && AnalyticsValid(analytics)
    }

    constructor (newUserRole: string)
      ensures Valid()
      ensures this.newUserRole == newUserRole
      ensures users == map[] && tests == map[] && questions == map[] && questionOrder == []
      ensures attempts == map[] && questionAttempts == map[] && analytics == map[]
    {
      this.newUserRole := newUserRole;
      users, tests, questions, questionOrder := map[], map[], map[], [];
      attempts, questionAttempts, analytics := map[], map[], map[];
    }
  }

  /** `findUnique({ where: { email } })`. */
  function FindByEmail(users: map<Id, User>, email: string): (found: Option<User>)
    requires UniqueEmails(users)
    ensures found.Some? <==> exists k :: k in users && users[k].email == email
    ensures found.Some? ==> found.value in users.Values && found.value.email == email
  {
    if exists k :: k in users && users[k].email == email then
      var k :| k in users && users[k].email == email;
      Some(users[k])
    else
      None
  }

  /** The ids of `stamps` ordered by `orderBy: { createdAt: 'desc' }`: every
      key exactly once, newest first. Rows with equal timestamps come in an
      unspecified order, as they do from the database. */
  ghost predicate NewestFirstOrder(stamps: map<Id, int>, ids: seq<Id>) {
    && Distinct(ids)
    && (forall i :: 0 <= i < |ids| ==> ids[i] in stamps)
    && (forall k :: k in stamps ==> k in ids)
    && (forall i, j :: 0 <= i < j < |ids| && ids[i] in stamps && ids[j] in stamps ==> stamps[ids[i]] >= stamps[ids[j]])
  }

  /** A key of `pool` with the largest timestamp. */
  method PickNewest(stamps: map<Id, int>, pool: set<Id>) returns (newest: Id)
    requires pool != {} && pool <= stamps.Keys
    ensures newest in pool
    ensures forall k :: k in pool ==> stamps[k] <= stamps[newest]
  {
    newest :| newest in pool;
    var rest := pool - {newest};
    while rest != {}
      invariant rest <= pool && newest in pool
      invariant forall k :: k in pool - rest ==> stamps[k] <= stamps[newest]
      decreases rest
    {
      var k :| k in rest;
      if stamps[k] > stamps[newest] {
        newest := k;
      }
      rest := rest - {k};
    }
  }

  /** The database's descending sort on `createdAt`, by repeated selection of the newest remaining row. */
  method NewestFirst(stamps: map<Id, int>) returns (ids: seq<Id>)
    ensures NewestFirstOrder(stamps, ids)
    ensures |ids| == |stamps|
  {
    ids := [];
    var rest := stamps.Keys;
    while rest != {}
      invariant rest <= stamps.Keys
      invariant |ids| + |rest| == |stamps|
      invariant Distinct(ids)
      invariant forall i :: 0 <= i < |ids| ==> ids[i] in stamps && ids[i] !in rest
      invariant forall k :: k in stamps ==> k in ids || k in rest
      invariant forall i, j :: 0 <= i < j < |ids| ==> stamps[ids[i]] >= stamps[ids[j]]
      invariant forall i, k :: 0 <= i < |ids| && k in rest ==> stamps[ids[i]] >= stamps[k]
      decreases rest
    {
      var newest := PickNewest(stamps, rest);
      ids := ids + [newest];
      rest := rest - {newest};
    }
    assert |stamps.Keys| == |stamps|;
  }
}

=== FILE: middleware.dfy ===
/** The bearer-token middleware: a fail-closed variant that rejects a request
    without a valid token and a fail-open variant that lets every request
    through. Both read the token the same way and verify it with the same key. */
module Middleware {
  import opened Common
  import opened Crypto
  import opened Db

  /** `authorization?.split(' ')[1]`, with `if (!token)` folded in: the
      second space-separated field of the header, or nothing when the header
      is missing, has no space, or its second field is empty. The scheme in
      the first field is not checked. */
  function BearerToken(authorization: Option<string>): (token: Option<string>)
    ensures token.Some? ==> token.value != "" && ' ' !in token.value
    ensures token.Some? ==> authorization.Some? && ' ' in authorization.value
  {
    if authorization.None? then None
    else
      var fields := Split(authorization.value, ' ');
      SplitFieldsFree(authorization.value, ' ');
      SplitShape(authorization.value, ' ');
      if |fields| >= 2 && fields[1] != "" then Some(fields[1]) else None
  }

  /** `Bearer <token>` (or any one-word scheme) yields the token. */
  lemma BearerTokenOfHeader(scheme: string, token: string)
    requires ' ' !in scheme && ' ' !in token && token != ""
    ensures BearerToken(Some(scheme + " " + token)) == Some(token)
  {
    SplitNoSep(token, ' ');
    SplitAtFirst(scheme, token, ' ');
  }

  /** A header with no space carries no token. */
  lemma NoSpaceNoToken(header: string)
    requires ' ' !in header
    ensures BearerToken(Some(header)) == None
  {
    SplitNoSep(header, ' ');
  }

  /** A double space after the scheme leaves the second field empty: no token. */
  lemma DoubleSpaceNoToken(scheme: string, rest: string)
    requires ' ' !in scheme
    ensures BearerToken(Some(scheme + "  " + rest)) == None
  {
    assert scheme + "  " + rest == scheme + [' '] + ([' '] + rest);
    SplitAtFirst(scheme, [' '] + rest, ' ');
    SplitAtFirst([], rest, ' ');
  }

  /** The Express request and response as the middleware sees them: the
      incoming `Authorization` header, the `userId`/`user` fields it sets, how
      often it called `next`, and the response it sent, if any. */
  class AuthRequest {
    const authorization: Option<string>
    var userId: Option<Id>
    var user: Option<Claims>
    var nextCalls: nat
    var sent: Option<Response>

    constructor (authorization: Option<string>)
      ensures this.authorization == authorization
      ensures userId == None && user == None && nextCalls == 0 && sent == None
    {
      this.authorization := authorization;
      userId, user, nextCalls, sent := None, None, 0, None;
    }
  }

  /** `authMiddleware`: fail closed. */
  method Authenticate(req: AuthRequest, jwt: Jwt, env: Option<string>)
    modifies req
    ensures BearerToken(req.authorization).None? ==>
      && req.sent == Some(Response(401, ErrorBody("No token provided")))
      && req.nextCalls == old(req.nextCalls)
      && req.userId == old(req.userId) && req.user == old(req.user)
    ensures BearerToken(req.authorization).Some? ==>
      var decoded := jwt.verify(BearerToken(req.authorization).value, VerifyingKey(env));
      && (decoded.None? ==>
            && req.sent == Some(Response(401, ErrorBody("Invalid token")))
            && req.nextCalls == old(req.nextCalls)
            && req.userId == old(req.userId) && req.user == old(req.user))
      && (decoded.Some? ==>
            && req.userId == Some(decoded.value.userId) && req.user == decoded
            && req.nextCalls == old(req.nextCalls) + 1
            && req.sent == old(req.sent))
  {
    var token := BearerToken(req.authorization);
    if token.None? {
      req.sent := Some(Response(401, ErrorBody("No token provided")));
      return;
    }
    var decoded := jwt.verify(token.value, VerifyingKey(env));
    if decoded.None? {
      req.sent := Some(Response(401, ErrorBody("Invalid token")));
      return;
    }
    req.userId := Some(decoded.value.userId);
    req.user := decoded;
    req.nextCalls := req.nextCalls + 1;
  }

  /** `optionalAuthMiddleware`: fail open. */
  method AuthenticateOptional(req: AuthRequest, jwt: Jwt, env: Option<string>)
    modifies req
    ensures req.nextCalls == old(req.nextCalls) + 1
    ensures req.sent == old(req.sent)
    ensures
      var token := BearerToken(req.authorization);
      var decoded := if token.Some? then jwt.verify(token.value, VerifyingKey(env)) else None;
      && (decoded.Some? ==> req.userId == Some(decoded.value.userId) && req.user == decoded)
      && (decoded.None? ==> req.userId == old(req.userId) && req.user == old(req.user))
  {
    var token := BearerToken(req.authorization);
    if token.Some? {
      var decoded := jwt.verify(token.value, VerifyingKey(env));
      if decoded.Some? {
        req.userId := Some(decoded.value.userId);
        req.user := decoded;
      }
    }
    req.nextCalls := req.nextCalls + 1;
  }
}

=== FILE: test_attempts.dfy ===
/** The `/api/test-attempts` routes: start an attempt, fetch it, submit a
    partial update with answers, and list the caller's attempts. Every route
    sits behind the fail-closed middleware, so `caller` is the `userId` of a
    verified token. */
module TestAttemptRoutes {
  import opened Common
  import opened Db

  const InProgress: string := "in_progress"
  const Completed: string := "completed"
  /** The key the upsert falls back to when an answer has no id. */
  const NewKey: string := "new"

  /** One entry of the submitted `questionAttempts` array; `None` is `undefined`. */
  datatype AnswerInput = AnswerInput(
    id: Option<string>, questionId: Id,
    selectedAnswer: Option<string>, isCorrect: Option<bool>, timeTaken: Option<int>)

  /** The PATCH body. `score` and `timeTaken` distinguish `undefined` (outer
      `None`) from `null` (`Some(None)`); `answers` is `None` when
      `questionAttempts` is missing or not an array. */
  datatype Patch = Patch(
    status: Option<string>, score: Option<Option<int>>, timeTaken: Option<Option<int>>,
    answers: Option<seq<AnswerInput>>)

  /** The 404-then-403 gate that fetch and update share: `None` lets the request through. */
  function Gate(attempts: map<Id, TestAttempt>, caller: Id, id: Id): (refusal: Option<Response>)
    ensures refusal.None? <==> id in attempts && attempts[id].userId == caller
    ensures id !in attempts ==> refusal == Some(Response(404, ErrorBody("Test attempt not found")))
    ensures id in attempts && attempts[id].userId != caller ==> refusal == Some(Response(403, ErrorBody("Unauthorized")))
  {
    if id !in attempts then Some(Response(404, ErrorBody("Test attempt not found")))
    else if attempts[id].userId != caller then Some(Response(403, ErrorBody("Unauthorized")))
    else None
  }

  /** The attempt POST `/` inserts. */
  function Started(id: Id, caller: Id, testId: Id, now: int): (a: TestAttempt)
    ensures a.id == id && a.userId == caller && a.testId == testId && a.status == InProgress
    ensures a.completedAt.None? && a.score.None? && a.timeTaken.None? && a.createdAt == now
  {
    TestAttempt(id, caller, testId, InProgress, None, None, None, now)
  }

  /** POST `/`. */
  method Create(db: Store, caller: Id, testId: Option<string>, newId: Id, now: int) returns (r: Response)
    requires db.Valid()
    requires newId !in db.attempts
    modifies db`attempts
    ensures db.Valid()
    ensures !Truthy(testId) ==> r == Response(400, ErrorBody("testId is required")) && db.attempts == old(db.attempts)
    ensures Truthy(testId) ==>
      && db.attempts == old(db.attempts)[newId := Started(newId, caller, testId.value, now)]
      && r == Response(201, AttemptBody(db.attempts[newId]))
  {
    if !Truthy(testId) {
      return Response(400, ErrorBody("testId is required"));
    }
    var attempt := Started(newId, caller, testId.value, now);
    db.attempts := db.attempts[newId := attempt];
    r := Response(201, AttemptBody(attempt));
  }

  /** The answers stored for attempt `id` (`include: { questionAttempts: true }`). */
  function AnswersOf(answers: map<Id, QuestionAttempt>, id: Id): (s: set<QuestionAttempt>)
    ensures forall qa :: qa in s <==> qa in answers.Values && qa.testAttemptId == id
  {
    set k | k in answers && answers[k].testAttemptId == id :: answers[k]
  }

  /** GET `/:id`. */
  function Fetch(db: Store, caller: Id, id: Id): (r: Response)
    reads db
    ensures r.status == 404 <==> id !in db.attempts
    ensures r.status == 403 <==> id in db.attempts && db.attempts[id].userId != caller
    ensures r.status == 200 <==> id in db.attempts && db.attempts[id].userId == caller
    ensures r.status != 200 ==> Some(r) == Gate(db.attempts, caller, id)
    ensures r.status == 200 ==>
      var a := db.attempts[id];
      r.body == AttemptDetail(a, AnswersOf(db.questionAttempts, id),
                              if a.testId in db.tests then Some(db.tests[a.testId]) else None)
  {
    var refusal := Gate(db.attempts, caller, id);
    if refusal.Some? then refusal.value
    else
      var a := db.attempts[id];
      Response(200, AttemptDetail(a, AnswersOf(db.questionAttempts, id),
                                  if a.testId in db.tests then Some(db.tests[a.testId]) else None))
  }

  /** The attempt after the partial update of PATCH `/:id`. */
  function ApplyPatch(a: TestAttempt, p: Patch, now: int): (r: TestAttempt)
    // who owns it, which test, and when it started never change
    ensures r.id == a.id && r.userId == a.userId && r.testId == a.testId && r.createdAt == a.createdAt
    // `status` only when truthy
    ensures Truthy(p.status) ==> r.status == p.status.value
    ensures !Truthy(p.status) ==> r.status == a.status
    // `score` and `timeTaken` whenever not undefined, so 0 and null are written too
    ensures p.score.Some? ==> r.score == p.score.value
    ensures p.score.None? ==> r.score == a.score
    ensures p.timeTaken.Some? ==> r.timeTaken == p.timeTaken.value
    ensures p.timeTaken.None? ==> r.timeTaken == a.timeTaken
    // `completedAt` is stamped exactly when the new status is "completed"
    ensures p.status == Some(Completed) ==> r.completedAt == Some(now) && r.status == Completed
    ensures p.status != Some(Completed) ==> r.completedAt == a.completedAt
  {
    a.(status := if Truthy(p.status) then p.status.value else a.status,
       score := if p.score.Some? then p.score.value else a.score,
       timeTaken := if p.timeTaken.Some? then p.timeTaken.value else a.timeTaken,
       completedAt := if p.status == Some(Completed) then Some(now) else a.completedAt)
  }

  /** Submitting the same patch twice at the same time changes nothing more. */
  lemma PatchIdempotent(a: TestAttempt, p: Patch, now: int)
    ensures ApplyPatch(ApplyPatch(a, p, now), p, now) == ApplyPatch(a, p, now)
  {
  }

  /** The lifecycle is not enforced: a completed attempt can be set back to
      `in_progress`, and it then keeps its completion time. */
  lemma ReopenKeepsCompletedAt(a: TestAttempt, now: int)
    requires a.status == Completed && a.completedAt.Some?
    ensures
      var r := ApplyPatch(a, Patch(Some(InProgress), None, None, None), now);
      r.status == InProgress && r.completedAt == a.completedAt
  {
  }

  /** `qa.id || 'new'`. */
  function UpsertKey(qa: AnswerInput): (key: Id)
    ensures Truthy(qa.id) ==> key == qa.id.value
    ensures !Truthy(qa.id) ==> key == NewKey
  {
    if Truthy(qa.id) then qa.id.value else NewKey
  }

  /** The update branch: `selectedAnswer`, `isCorrect` and `timeTaken`, each
      only when defined (the ORM skips `undefined`). */
  function Overwrite(stored: QuestionAttempt, qa: AnswerInput): (r: QuestionAttempt)
    ensures r.id == stored.id && r.testAttemptId == stored.testAttemptId && r.questionId == stored.questionId
    ensures qa.selectedAnswer.Some? ==> r.selectedAnswer == qa.selectedAnswer
    ensures qa.selectedAnswer.None? ==> r.selectedAnswer == stored.selectedAnswer
    ensures qa.isCorrect.Some? ==> r.isCorrect == qa.isCorrect
    ensures qa.isCorrect.None? ==> r.isCorrect == stored.isCorrect
    ensures qa.timeTaken.Some? ==> r.timeTaken == qa.timeTaken
    ensures qa.timeTaken.None? ==> r.timeTaken == stored.timeTaken
  {
    stored.(selectedAnswer := if qa.selectedAnswer.Some? then qa.selectedAnswer else stored.selectedAnswer,
            isCorrect := if qa.isCorrect.Some? then qa.isCorrect else stored.isCorrect,
            timeTaken := if qa.timeTaken.Some? then qa.timeTaken else stored.timeTaken)
  }

  /** One `questionAttempt.upsert`; `freshId` is the id the database gives
      the record when the create branch runs. */
  function UpsertOne(answers: map<Id, QuestionAttempt>, attemptId: Id, qa: AnswerInput, freshId: Id): (r: map<Id, QuestionAttempt>)
    ensures answers.Keys <= r.Keys <= answers.Keys + {freshId}
    ensures UpsertKey(qa) in answers ==> r.Keys == answers.Keys
  {
    var key := UpsertKey(qa);
    if key in answers then answers[key := Overwrite(answers[key], qa)]
    else answers[freshId := QuestionAttempt(freshId, attemptId, qa.questionId, qa.selectedAnswer, qa.isCorrect, qa.timeTaken)]
  }

  /** The upserts of the entries of `qas`, in array order. */
  function UpsertAll(answers: map<Id, QuestionAttempt>, attemptId: Id, qas: seq<AnswerInput>, freshIds: seq<Id>): (r: map<Id, QuestionAttempt>)
    requires |freshIds| == |qas|
    ensures answers.Keys <= r.Keys
  {
    if qas == [] then answers
    else
      var n := |qas| - 1;
      UpsertOne(UpsertAll(answers, attemptId, qas[..n], freshIds[..n]), attemptId, qas[n], freshIds[n])
  }

  /** The upserts add no key but the fresh ids: at most one record per entry. */
  lemma {:induction false} UpsertAllBound(answers: map<Id, QuestionAttempt>, attemptId: Id, qas: seq<AnswerInput>, freshIds: seq<Id>)
    requires |freshIds| == |qas|
    ensures UpsertAll(answers, attemptId, qas, freshIds).Keys <= answers.Keys + set i | 0 <= i < |freshIds| :: freshIds[i]
  {
    if qas != [] {
      var n := |qas| - 1;
      assert forall i :: 0 <= i < n ==> freshIds[..n][i] == freshIds[i];
      UpsertAllBound(answers, attemptId, qas[..n], freshIds[..n]);
    }
  }

  /** The fresh ids the create branch may use: distinct and unused. */
  ghost predicate FreshFor(answers: map<Id, QuestionAttempt>, freshIds: seq<Id>) {
    Distinct(freshIds) && forall i :: 0 <= i < |freshIds| ==> freshIds[i] !in answers
  }

  /** One upsert with an unused fresh id: it keeps every stored record,
      with its id, attempt and question; it adds at most the fresh id, for
      attempt `attemptId`; it touches no record but the one its key names;
      that record takes the entry's defined fields, or, when the key names
      no record, a new one is created under the fresh id. */
  lemma UpsertOneEffect(answers: map<Id, QuestionAttempt>, attemptId: Id, qa: AnswerInput, freshId: Id)
    requires freshId !in answers
    ensures var r := UpsertOne(answers, attemptId, qa, freshId);
      && answers.Keys <= r.Keys
      && (forall k :: k in answers ==>
            r[k].id == answers[k].id && r[k].testAttemptId == answers[k].testAttemptId && r[k].questionId == answers[k].questionId)
      && (forall k :: k in r && k !in answers ==> k == freshId && r[k].testAttemptId == attemptId && r[k].id == k)
      && (forall k :: k in answers && k != UpsertKey(qa) ==> r[k] == answers[k])
    // the update branch: the record the key names takes the defined answer fields
    ensures UpsertKey(qa) in answers ==>
      UpsertOne(answers, attemptId, qa, freshId) == answers[UpsertKey(qa) := Overwrite(answers[UpsertKey(qa)], qa)]
    // the create branch: a new record for this attempt under the fresh id
    ensures UpsertKey(qa) !in answers ==>
      UpsertOne(answers, attemptId, qa, freshId) ==
        answers[freshId := QuestionAttempt(freshId, attemptId, qa.questionId, qa.selectedAnswer, qa.isCorrect, qa.timeTaken)]
  {
  }

  /** The upsert loop keeps every stored record, with its id, attempt and
      question: an update never moves a record to another attempt or question. */
  lemma {:induction false} UpsertAllKeeps(answers: map<Id, QuestionAttempt>, attemptId: Id, qas: seq<AnswerInput>, freshIds: seq<Id>)
    requires |freshIds| == |qas| && FreshFor(answers, freshIds)
    ensures var r := UpsertAll(answers, attemptId, qas, freshIds);
      && answers.Keys <= r.Keys
      && (forall k :: k in answers ==>
            r[k].id == answers[k].id && r[k].testAttemptId == answers[k].testAttemptId && r[k].questionId == answers[k].questionId)
  {
    if qas != [] {
      var n := |qas| - 1;
      assert FreshFor(answers, freshIds[..n]);
      UpsertAllKeeps(answers, attemptId, qas[..n], freshIds[..n]);
      UpsertAllAdds(answers, attemptId, qas[..n], freshIds[..n]);
      var mid := UpsertAll(answers, attemptId, qas[..n], freshIds[..n]);
      assert freshIds[n] !in freshIds[..n];
      UpsertOneEffect(mid, attemptId, qas[n], freshIds[n]);
    }
  }

  /** Every record the upsert loop adds has one of the fresh ids and belongs
      to the attempt being patched. */
  lemma {:induction false} UpsertAllAdds(answers: map<Id, QuestionAttempt>, attemptId: Id, qas: seq<AnswerInput>, freshIds: seq<Id>)
    requires |freshIds| == |qas| && FreshFor(answers, freshIds)
    ensures var r := UpsertAll(answers, attemptId, qas, freshIds);
      forall k :: k in r && k !in answers ==> k in freshIds && r[k].testAttemptId == attemptId && r[k].id == k
  {
    if qas != [] {
      var n := |qas| - 1;
      assert FreshFor(answers, freshIds[..n]);
      UpsertAllAdds(answers, attemptId, qas[..n], freshIds[..n]);
      var mid := UpsertAll(answers, attemptId, qas[..n], freshIds[..n]);
      assert freshIds[n] !in freshIds[..n];
      UpsertOneEffect(mid, attemptId, qas[n], freshIds[n]);
      assert forall k :: k in freshIds[..n] ==> k in freshIds;
    }
  }

  /** A stored record that no entry names is left as it was. */
  lemma {:induction false} UpsertAllUntouched(answers: map<Id, QuestionAttempt>, attemptId: Id, qas: seq<AnswerInput>, freshIds: seq<Id>, k: Id)
    requires |freshIds| == |qas| && FreshFor(answers, freshIds)
    requires k in answers && forall i :: 0 <= i < |qas| ==> UpsertKey(qas[i]) != k
    ensures var r := UpsertAll(answers, attemptId, qas, freshIds);
      k in r && r[k] == answers[k]
  {
    if qas != [] {
      var n := |qas| - 1;
      assert FreshFor(answers, freshIds[..n]);
      assert forall i :: 0 <= i < n ==> qas[..n][i] == qas[i];
      UpsertAllUntouched(answers, attemptId, qas[..n], freshIds[..n], k);
      UpsertAllKeeps(answers, attemptId, qas[..n], freshIds[..n]);
      UpsertAllAdds(answers, attemptId, qas[..n], freshIds[..n]);
      var mid := UpsertAll(answers, attemptId, qas[..n], freshIds[..n]);
      assert freshIds[n] !in freshIds[..n];
      UpsertOneEffect(mid, attemptId, qas[n], freshIds[n]);
    }
  }

  /** No entry carries an id. */
  ghost predicate AllIdLess(qas: seq<AnswerInput>) {
    forall i :: 0 <= i < |qas| ==> !Truthy(qas[i].id)
  }

  /** Entries without an id do not collide on the placeholder key: as long as
      no stored record is called `"new"` (the database never names one so),
      each of them inserts a record of its own under its fresh id. */
  lemma {:induction false} IdLessAnswersAllInsert(answers: map<Id, QuestionAttempt>, attemptId: Id, qas: seq<AnswerInput>, freshIds: seq<Id>)
    requires |freshIds| == |qas| && FreshFor(answers, freshIds) && AllIdLess(qas)
    requires NewKey !in answers && NewKey !in freshIds
    ensures var r := UpsertAll(answers, attemptId, qas, freshIds);
      && (forall k :: k in r <==> k in answers || k in freshIds)
      && |r| == |answers| + |qas|
  {
    if qas != [] {
      var n := |qas| - 1;
      assert freshIds == freshIds[..n] + [freshIds[n]];
      assert FreshFor(answers, freshIds[..n]);
      assert NewKey !in freshIds[..n];
      IdLessAnswersAllInsert(answers, attemptId, qas[..n], freshIds[..n]);
      var mid := UpsertAll(answers, attemptId, qas[..n], freshIds[..n]);
      assert UpsertKey(qas[n]) == NewKey;
      assert NewKey !in mid;
      assert freshIds[n] !in freshIds[..n];
      assert freshIds[n] !in mid;
      var r := UpsertAll(answers, attemptId, qas, freshIds);
      assert r == mid[freshIds[n] := QuestionAttempt(freshIds[n], attemptId, qas[n].questionId, qas[n].selectedAnswer, qas[n].isCorrect, qas[n].timeTaken)];
      InsertFreshStep(answers, mid, freshIds[..n], freshIds[n], r);
    }
  }

  /** One more insert under a key that is not yet used grows the table by one. */
  lemma InsertFreshStep(answers: map<Id, QuestionAttempt>, mid: map<Id, QuestionAttempt>, front: seq<Id>, x: Id, r: map<Id, QuestionAttempt>)
    requires forall k :: k in mid <==> k in answers || k in front
    requires |mid| == |answers| + |front|
    requires x !in answers && x !in front
    requires r.Keys == mid.Keys + {x}
    ensures forall k :: k in r <==> k in answers || k in front + [x]
    ensures |r| == |answers| + |front + [x]|
  {
    assert x !in mid.Keys;
    assert |r.Keys| == |mid.Keys| + 1;
  }

  /** An entry naming an existing record of another attempt overwrites that
      record's answer: the update branch does not check whose record it is. */
  lemma UpsertIgnoresOwnership(answers: map<Id, QuestionAttempt>, attemptId: Id, qa: AnswerInput, freshId: Id)
    requires Truthy(qa.id) && qa.id.value in answers && answers[qa.id.value].testAttemptId != attemptId
    requires qa.selectedAnswer.Some?
    ensures var r := UpsertAll(answers, attemptId, [qa], [freshId]);
      && qa.id.value in r
      && r[qa.id.value].selectedAnswer == qa.selectedAnswer
      && r[qa.id.value].testAttemptId != attemptId
  {
    assert [qa][..0] == [] && [freshId][..0] == [];
    assert UpsertAll(answers, attemptId, [qa], [freshId]) == UpsertOne(answers, attemptId, qa, freshId);
  }

  /** One upsert keeps every answer record stored under its own id. */
  lemma UpsertOneValid(answers: map<Id, QuestionAttempt>, attemptId: Id, qa: AnswerInput, freshId: Id)
    requires AnswersValid(answers)
    ensures AnswersValid(UpsertOne(answers, attemptId, qa, freshId))
  {
    var r := UpsertOne(answers, attemptId, qa, freshId);
    forall k | k in r ensures r[k].id == k {
      if k in answers && k != freshId {
        assert r[k].id == answers[k].id;
      }
    }
  }

  /** PATCH `/:id`. `freshIds[i]` is the id the database would give a record
      created for entry `i`. */
  method Update(db: Store, caller: Id, id: Id, p: Patch, now: int, freshIds: seq<Id>) returns (r: Response)
    requires db.Valid()
    requires p.answers.Some? ==> |freshIds| == |p.answers.value| && FreshFor(db.questionAttempts, freshIds)
    modifies db`attempts, db`questionAttempts
    ensures db.Valid()
    // a refused request writes nothing
    ensures Gate(old(db.attempts), caller, id).Some? ==>
      && r == Gate(old(db.attempts), caller, id).value
      && db.attempts == old(db.attempts) && db.questionAttempts == old(db.questionAttempts)
    ensures Gate(old(db.attempts), caller, id).None? ==>
      && db.attempts == old(db.attempts)[id := ApplyPatch(old(db.attempts)[id], p, now)]
      && db.questionAttempts ==
           (if p.answers.Some? then UpsertAll(old(db.questionAttempts), id, p.answers.value, freshIds)
            else old(db.questionAttempts))
      && r == Response(200, AttemptBody(db.attempts[id]))
  {
    var refusal := Gate(db.attempts, caller, id);
    if refusal.Some? {
      return refusal.value;
    }
    var updated := ApplyPatch(db.attempts[id], p, now);
    db.attempts := db.attempts[id := updated];
    if p.answers.Some? {
      SaveAnswers(db, id, p.answers.value, freshIds);
    }
    r := Response(200, AttemptBody(updated));
  }

  /** The upserts of the first `i + 1` entries are those of the first `i`, then entry `i`'s. */
  lemma UpsertAllStep(answers: map<Id, QuestionAttempt>, attemptId: Id, qas: seq<AnswerInput>, freshIds: seq<Id>, i: nat)
    requires |freshIds| == |qas| && i < |qas|
    ensures UpsertAll(answers, attemptId, qas[..i + 1], freshIds[..i + 1]) ==
      UpsertOne(UpsertAll(answers, attemptId, qas[..i], freshIds[..i]), attemptId, qas[i], freshIds[i])
  {
    assert qas[..i + 1][..i] == qas[..i] && freshIds[..i + 1][..i] == freshIds[..i];
  }

  /** The `for` loop of PATCH `/:id`: one upsert per entry, in array order. */
  method SaveAnswers(db: Store, id: Id, qas: seq<AnswerInput>, freshIds: seq<Id>)
    requires |freshIds| == |qas| && AnswersValid(db.questionAttempts)
    modifies db`questionAttempts
    ensures db.questionAttempts == UpsertAll(old(db.questionAttempts), id, qas, freshIds)
    ensures AnswersValid(db.questionAttempts)
  {
    var i := 0;
    while i < |qas|
      invariant 0 <= i <= |qas|
      invariant db.questionAttempts == UpsertAll(old(db.questionAttempts), id, qas[..i], freshIds[..i])
      invariant AnswersValid(db.questionAttempts)
    {
      UpsertAllStep(old(db.questionAttempts), id, qas, freshIds, i);
      UpsertOneValid(db.questionAttempts, id, qas[i], freshIds[i]);
      db.questionAttempts := UpsertOne(db.questionAttempts, id, qas[i], freshIds[i]);
      i := i + 1;
    }
    assert qas[..i] == qas && freshIds[..i] == freshIds;
  }

  /** The attempts `caller` owns. */
  function OwnedBy(attempts: map<Id, TestAttempt>, caller: Id): (owned: set<TestAttempt>)
    ensures forall a :: a in owned <==> a in attempts.Values && a.userId == caller
  {
    set k | k in attempts && attempts[k].userId == caller :: attempts[k]
  }

  /** `select: { id, title, section, duration }` of the attempt's test. */
  function BriefOf(tests: map<Id, Test>, testId: Id): (brief: Option<TestBrief>)
    ensures brief.Some? <==> testId in tests
    ensures brief.Some? ==>
      && brief.value.id == tests[testId].id && brief.value.title == tests[testId].title
      && brief.value.section == tests[testId].section && brief.value.duration == tests[testId].duration
  {
    if testId in tests then
      var t := tests[testId]; Some(TestBrief(t.id, t.title, t.section, t.duration))
    else None
  }

  /** The `createdAt` stamps of `caller`'s attempts, by attempt id. */
  function OwnedStamps(attempts: map<Id, TestAttempt>, caller: Id): (stamps: map<Id, int>)
    ensures forall k :: k in stamps <==> k in attempts && attempts[k].userId == caller
  {
    map k | k in attempts && attempts[k].userId == caller :: attempts[k].createdAt
  }

  /** The caller's attempts, newest first: each exactly once, nobody else's. */
  ghost predicate ListsOwnNewestFirst(attempts: map<Id, TestAttempt>, caller: Id, listed: seq<TestAttempt>) {
    && Distinct(listed)
    && (forall i :: 0 <= i < |listed| ==> listed[i] in OwnedBy(attempts, caller))
    && (forall a :: a in OwnedBy(attempts, caller) ==> a in listed)
    && (forall i, j :: 0 <= i < j < |listed| ==> listed[i].createdAt >= listed[j].createdAt)
  }

  /** The caller's attempts, newest first, read off the sorted ids. */
  method OwnNewestFirst(db: Store, caller: Id) returns (own: seq<TestAttempt>)
    requires db.Valid()
    ensures ListsOwnNewestFirst(db.attempts, caller, own)
  {
    var attempts := db.attempts;
    var stamps := OwnedStamps(attempts, caller);
    var ids := NewestFirst(stamps);
    own := seq(|ids|, i requires 0 <= i < |ids| => attempts[ids[i]]);
    forall a | a in OwnedBy(attempts, caller) ensures a in own {
      var k :| k in attempts && attempts[k] == a;
      assert k in stamps;
      var i :| 0 <= i < |ids| && ids[i] == k;
      assert own[i] == a;
    }
    forall i, j | 0 <= i < j < |own| ensures own[i] != own[j] {
      assert own[i].id == ids[i] && own[j].id == ids[j];
    }
  }

  /** GET `/user/attempts`. */
  method ListForUser(db: Store, caller: Id) returns (r: Response)
    requires db.Valid()
    ensures r.status == 200 && r.body.AttemptList?
    ensures ListsOwnNewestFirst(db.attempts, caller, AttemptsOf(r.body.listed))
    ensures forall i :: 0 <= i < |r.body.listed| ==> r.body.listed[i].test == BriefOf(db.tests, r.body.listed[i].attempt.testId)
  {
    var own := OwnNewestFirst(db, caller);
    var tests := db.tests;
    var listed := seq(|own|, i requires 0 <= i < |own| => WithTest(own[i], BriefOf(tests, own[i].testId)));
    assert AttemptsOf(listed) == own;
    r := Response(200, AttemptList(listed));
  }
}

=== FILE: tests_routes.dfy ===
/** The `/api/tests` routes: the public catalogue of tests with their question
    counts, one test with its questions minus their correct answers, and test
    creation, which any authenticated caller may perform. */
module TestRoutes {
  import opened Common
  import opened Crypto
  import opened Db
  import opened Middleware

  /** One element of the `questions` array of POST `/`. */
  datatype QuestionInput = QuestionInput(
    questionText: string, options: seq<string>, correctAnswer: string,
    explanation: Option<string>, marks: int)

  /** The body of POST `/`. A scalar field that is missing is `None`; so is
      `questions` when it is missing or not an array. */
  datatype NewTest = NewTest(
    title: Option<string>, section: Option<string>, difficulty: Option<string>,
    duration: Option<int>, totalMarks: Option<int>, questions: Option<seq<QuestionInput>>)

  /** The `select` of GET `/:id`: every field but `correctAnswer` and `testId`. */
  function Public(q: Question): (p: PublicQuestion)
    ensures p.id == q.id && p.questionText == q.questionText && p.options == q.options
    ensures p.marks == q.marks && p.explanation == q.explanation
  {
    PublicQuestion(q.id, q.questionText, q.options, q.marks, q.explanation)
  }

  /** The questions of test `testId` in the order `order` lists them, as GET `/:id` selects them. */
  function QuestionsOf(questions: map<Id, Question>, order: seq<Id>, testId: Id): (qs: seq<PublicQuestion>)
    ensures |qs| <= |order|
  {
    if order == [] then []
    else
      var front := QuestionsOf(questions, order[..|order| - 1], testId);
      var k := order[|order| - 1];
      if k in questions && questions[k].testId == testId then front + [Public(questions[k])] else front
  }

  /** The ids of `ids` that name questions of `testId`. */
  function MatchingIn(questions: map<Id, Question>, ids: seq<Id>, testId: Id): (matching: set<Id>)
    ensures forall k :: k in matching <==> k in ids && k in questions && questions[k].testId == testId
  {
    set k | k in ids && k in questions && questions[k].testId == testId
  }

  /** `_count: { select: { questions: true } }`: how many stored questions belong to `testId`. */
  function QuestionCount(questions: map<Id, Question>, testId: Id): (n: nat)
    ensures n == 0 <==> forall k :: k in questions ==> questions[k].testId != testId
  {
    var matching := set k | k in questions && questions[k].testId == testId;
    assert matching == {} <==> forall k :: k in questions ==> questions[k].testId != testId by {
      if exists k :: k in questions && questions[k].testId == testId {
        var k :| k in questions && questions[k].testId == testId;
        assert k in matching;
      } else {
        assert forall k :: k !in matching;
      }
    }
    |matching|
  }

  /** A question is listed exactly when `order` names it and it belongs to the test. */
  lemma {:induction false} QuestionsOfMembers(questions: map<Id, Question>, order: seq<Id>, testId: Id, p: PublicQuestion)
    ensures p in QuestionsOf(questions, order, testId) <==>
      exists i :: 0 <= i < |order| && order[i] in questions && questions[order[i]].testId == testId && Public(questions[order[i]]) == p
  {
    if order != [] {
      var front := order[..|order| - 1];
      QuestionsOfMembers(questions, front, testId, p);
      if exists i :: 0 <= i < |order| && order[i] in questions && questions[order[i]].testId == testId && Public(questions[order[i]]) == p {
        var i :| 0 <= i < |order| && order[i] in questions && questions[order[i]].testId == testId && Public(questions[order[i]]) == p;
        if i < |front| {
          assert front[i] == order[i];
        }
      }
      if exists i :: 0 <= i < |front| && front[i] in questions && questions[front[i]].testId == testId && Public(questions[front[i]]) == p {
        var i :| 0 <= i < |front| && front[i] in questions && questions[front[i]].testId == testId && Public(questions[front[i]]) == p;
        assert order[i] == front[i];
      }
    }
  }

  /** Listing over a concatenation lists each part in turn. */
  lemma {:induction false} QuestionsOfAppend(questions: map<Id, Question>, a: seq<Id>, b: seq<Id>, testId: Id)
    ensures QuestionsOf(questions, a + b, testId) == QuestionsOf(questions, a, testId) + QuestionsOf(questions, b, testId)
  {
    if b == [] {
      assert a + b == a;
    } else {
      var front := b[..|b| - 1];
      assert (a + b)[..|a + b| - 1] == a + front;
      QuestionsOfAppend(questions, a, front, testId);
    }
  }

  /** Ids that name no question of the test list nothing. */
  lemma {:induction false} QuestionsOfNone(questions: map<Id, Question>, order: seq<Id>, testId: Id)
    requires forall i :: 0 <= i < |order| && order[i] in questions ==> questions[order[i]].testId != testId
    ensures QuestionsOf(questions, order, testId) == []
  {
    if order != [] {
      QuestionsOfNone(questions, order[..|order| - 1], testId);
    }
  }

  /** In a valid store, GET `/:id` returns as many questions as the catalogue counts. */
  lemma CountMatchesListing(questions: map<Id, Question>, order: seq<Id>, testId: Id)
    requires Distinct(order)
    requires forall k :: k in questions ==> k in order
    ensures |QuestionsOf(questions, order, testId)| == QuestionCount(questions, testId)
  {
    ListedCount(questions, order, testId);
    assert MatchingIn(questions, order, testId) == set k | k in questions && questions[k].testId == testId;
  }

  lemma {:induction false} ListedCount(questions: map<Id, Question>, order: seq<Id>, testId: Id)
    requires Distinct(order)
    ensures |QuestionsOf(questions, order, testId)| == |MatchingIn(questions, order, testId)|
  {
    if order != [] {
      var front, k := order[..|order| - 1], order[|order| - 1];
      assert Distinct(front) by {
        forall i, j | 0 <= i < j < |front| ensures front[i] != front[j] {
          assert front[i] == order[i] && front[j] == order[j];
        }
      }
      ListedCount(questions, front, testId);
      assert k !in front;
      assert order == front + [k];
      if k in questions && questions[k].testId == testId {
        assert MatchingIn(questions, order, testId) == MatchingIn(questions, front, testId) + {k};
      } else {
        assert MatchingIn(questions, order, testId) == MatchingIn(questions, front, testId);
      }
    }
  }

  /** GET `/:id`: 404 for an unknown id; otherwise the test and its
      questions, none of them with its correct answer. */
  function GetTest(db: Store, id: Id): (r: Response)
    reads db
    ensures id !in db.tests <==> r == Response(404, ErrorBody("Test not found"))
    ensures id in db.tests ==> r.status == 200 && r.body.TestDetail? && r.body.test == db.tests[id]
  {
    if id !in db.tests then Response(404, ErrorBody("Test not found"))
    else Response(200, TestDetail(db.tests[id], QuestionsOf(db.questions, db.questionOrder, id)))
  }

  /** GET `/:id` serves exactly the stored questions of the test: a projected
      question is served exactly when a stored question of that test projects to it. */
  lemma GetTestServesItsQuestions(db: Store, id: Id, p: PublicQuestion)
    requires id in db.tests
    ensures p in GetTest(db, id).body.questions <==>
      exists i :: 0 <= i < |db.questionOrder| && db.questionOrder[i] in db.questions
        && db.questions[db.questionOrder[i]].testId == id && Public(db.questions[db.questionOrder[i]]) == p
  {
    QuestionsOfMembers(db.questions, db.questionOrder, id, p);
  }

  /** In a valid store, GET `/:id` serves as many questions as the catalogue counts for the test. */
  lemma GetTestCount(db: Store, id: Id)
    requires db.Valid() && id in db.tests
    ensures |GetTest(db, id).body.questions| == QuestionCount(db.questions, id)
  {
    CountMatchesListing(db.questions, db.questionOrder, id);
  }

  /** Every test once, in the order `ids` gives, each with its question count. */
  ghost predicate ListsEveryTest(tests: map<Id, Test>, questions: map<Id, Question>, s: seq<TestSummary>) {
    && |s| == |tests|
    && (forall i :: 0 <= i < |s| ==> s[i].test.id in tests && tests[s[i].test.id] == s[i].test)
    && (forall k :: k in tests ==> exists i :: 0 <= i < |s| && s[i].test.id == k)
    && (forall i, j :: 0 <= i < j < |s| ==> s[i].test.id != s[j].test.id)
    && (forall i :: 0 <= i < |s| ==> s[i].questionCount == QuestionCount(questions, s[i].test.id))
  }

  /** The catalogue read off the sorted ids. */
  function Summaries(tests: map<Id, Test>, questions: map<Id, Question>, ids: seq<Id>): (s: seq<TestSummary>)
    requires forall i :: 0 <= i < |ids| ==> ids[i] in tests
    ensures |s| == |ids|
    ensures forall i :: 0 <= i < |ids| ==> s[i] == TestSummary(tests[ids[i]], QuestionCount(questions, ids[i]))
  {
    seq(|ids|, i requires 0 <= i < |ids| => TestSummary(tests[ids[i]], QuestionCount(questions, ids[i])))
  }

  /** Sorting the creation stamps of the tests and reading the tests back lists every test once, newest first. */
  lemma SummariesOfSorted(tests: map<Id, Test>, questions: map<Id, Question>, stamps: map<Id, int>, ids: seq<Id>)
    requires forall k :: k in tests ==> tests[k].id == k
    requires forall k :: k in stamps <==> k in tests
    requires forall k :: k in stamps ==> stamps[k] == tests[k].createdAt
    requires NewestFirstOrder(stamps, ids)
    requires |ids| == |tests|
    ensures forall i :: 0 <= i < |ids| ==> ids[i] in tests
    ensures ListsEveryTest(tests, questions, Summaries(tests, questions, ids))
    ensures var s := Summaries(tests, questions, ids);
      forall i, j :: 0 <= i < j < |s| ==> s[i].test.createdAt >= s[j].test.createdAt
  {
    SummariesCover(tests, questions, stamps, ids);
    SummariesNewestFirst(tests, questions, stamps, ids);
  }

  /** Each test appears once in the catalogue read off the sorted ids, with its question count. */
  lemma SummariesCover(tests: map<Id, Test>, questions: map<Id, Question>, stamps: map<Id, int>, ids: seq<Id>)
    requires forall k :: k in tests ==> tests[k].id == k
    requires forall k :: k in stamps <==> k in tests
    requires NewestFirstOrder(stamps, ids)
    requires |ids| == |tests|
    ensures forall i :: 0 <= i < |ids| ==> ids[i] in tests
    ensures ListsEveryTest(tests, questions, Summaries(tests, questions, ids))
  {
    SummariesStored(tests, questions, stamps, ids);
    SummariesDistinct(tests, questions, stamps, ids);
    SummariesComplete(tests, questions, stamps, ids);
  }

  lemma SummariesStored(tests: map<Id, Test>, questions: map<Id, Question>, stamps: map<Id, int>, ids: seq<Id>)
    requires forall k :: k in tests ==> tests[k].id == k
    requires forall k :: k in stamps <==> k in tests
    requires NewestFirstOrder(stamps, ids)
    ensures forall i :: 0 <= i < |ids| ==> ids[i] in tests
    ensures var s := Summaries(tests, questions, ids);
      forall i :: 0 <= i < |s| ==>
        s[i].test.id in tests && tests[s[i].test.id] == s[i].test && s[i].questionCount == QuestionCount(questions, s[i].test.id)
  {
    assert forall i :: 0 <= i < |ids| ==> ids[i] in tests;
  }

  lemma SummariesDistinct(tests: map<Id, Test>, questions: map<Id, Question>, stamps: map<Id, int>, ids: seq<Id>)
    requires forall k :: k in tests ==> tests[k].id == k
    requires forall k :: k in stamps <==> k in tests
    requires NewestFirstOrder(stamps, ids)
    ensures forall i :: 0 <= i < |ids| ==> ids[i] in tests
    ensures var s := Summaries(tests, questions, ids);
      forall i, j :: 0 <= i < j < |s| ==> s[i].test.id != s[j].test.id
  {
    assert forall i :: 0 <= i < |ids| ==> ids[i] in tests;
  }

  lemma SummariesComplete(tests: map<Id, Test>, questions: map<Id, Question>, stamps: map<Id, int>, ids: seq<Id>)
    requires forall k :: k in tests ==> tests[k].id == k
    requires forall k :: k in stamps <==> k in tests
    requires NewestFirstOrder(stamps, ids)
    ensures forall i :: 0 <= i < |ids| ==> ids[i] in tests
    ensures var s := Summaries(tests, questions, ids);
      forall k :: k in tests ==> exists i :: 0 <= i < |s| && s[i].test.id == k
  {
    assert forall i :: 0 <= i < |ids| ==> ids[i] in tests;
    var s := Summaries(tests, questions, ids);
    forall k | k in tests ensures exists i :: 0 <= i < |s| && s[i].test.id == k {
      assert k in stamps;
      var i :| 0 <= i < |ids| && ids[i] == k;
      assert s[i].test.id == k;
    }
  }

  /** The catalogue read off the sorted ids comes newest first. */
  lemma SummariesNewestFirst(tests: map<Id, Test>, questions: map<Id, Question>, stamps: map<Id, int>, ids: seq<Id>)
    requires forall k :: k in stamps <==> k in tests
    requires forall k :: k in stamps ==> stamps[k] == tests[k].createdAt
    requires NewestFirstOrder(stamps, ids)
    ensures forall i :: 0 <= i < |ids| ==> ids[i] in tests
    ensures var s := Summaries(tests, questions, ids);
      forall i, j :: 0 <= i < j < |s| ==> s[i].test.createdAt >= s[j].test.createdAt
  {
    var s := Summaries(tests, questions, ids);
    forall i, j | 0 <= i < j < |s| ensures s[i].test.createdAt >= s[j].test.createdAt {
      assert stamps[ids[i]] >= stamps[ids[j]];
    }
  }

  /** GET `/`: every test once, newest first, each with its question count. */
  method ListTests(db: Store) returns (r: Response)
    requires db.Valid()
    ensures r.status == 200 && r.body.TestList?
    ensures ListsEveryTest(db.tests, db.questions, r.body.summaries)
    ensures forall i, j :: 0 <= i < j < |r.body.summaries| ==>
      r.body.summaries[i].test.createdAt >= r.body.summaries[j].test.createdAt
  {
    var tests, questions := db.tests, db.questions;
    var stamps := map k | k in tests :: tests[k].createdAt;
    var ids := NewestFirst(stamps);
    assert stamps.Keys == tests.Keys;
    SummariesOfSorted(tests, questions, stamps, ids);
    r := Response(200, TestList(Summaries(tests, questions, ids)));
  }

  /** The row `questions.create` inserts for one input: the input's fields
      under the id the database assigns, belonging to the new test. */
  function Row(testId: Id, q: QuestionInput, id: Id): (row: Question)
    ensures row.id == id && row.testId == testId && row.correctAnswer == q.correctAnswer
    ensures Public(row) == PublicQuestion(id, q.questionText, q.options, q.marks, q.explanation)
  {
    Question(id, testId, q.questionText, q.options, q.correctAnswer, q.explanation, q.marks)
  }

  /** The questions table after the nested create has inserted one row per input, in input order. */
  function WithQuestions(questions: map<Id, Question>, testId: Id, inputs: seq<QuestionInput>, ids: seq<Id>): (m: map<Id, Question>)
    requires |ids| == |inputs|
    ensures questions.Keys <= m.Keys
  {
    if inputs == [] then questions
    else
      var n := |inputs| - 1;
      WithQuestions(questions, testId, inputs[..n], ids[..n])[ids[n] := Row(testId, inputs[n], ids[n])]
  }

  /** The nested create adds no key but the given ids: at most one row per input. */
  lemma {:induction false} WithQuestionsBound(questions: map<Id, Question>, testId: Id, inputs: seq<QuestionInput>, ids: seq<Id>)
    requires |ids| == |inputs|
    ensures WithQuestions(questions, testId, inputs, ids).Keys <= questions.Keys + set i | 0 <= i < |ids| :: ids[i]
  {
    if inputs != [] {
      var n := |inputs| - 1;
      assert forall i :: 0 <= i < n ==> ids[..n][i] == ids[i];
      WithQuestionsBound(questions, testId, inputs[..n], ids[..n]);
    }
  }

  /** A duplicate-free sequence stays duplicate-free without its last element. */
  lemma DistinctFront(ids: seq<Id>)
    requires ids != [] && Distinct(ids)
    ensures Distinct(ids[..|ids| - 1])
  {
    var front := ids[..|ids| - 1];
    forall i, j | 0 <= i < j < |front| ensures front[i] != front[j] {
      assert front[i] == ids[i] && front[j] == ids[j];
    }
  }

  /** With fresh, distinct ids, the nested create adds exactly one row per
      input under its id and leaves every existing question as it was. */
  lemma {:induction false} WithQuestionsShape(questions: map<Id, Question>, testId: Id, inputs: seq<QuestionInput>, ids: seq<Id>)
    requires |ids| == |inputs| && Distinct(ids)
    requires forall i :: 0 <= i < |ids| ==> ids[i] !in questions
    ensures forall k :: k in WithQuestions(questions, testId, inputs, ids) <==> k in questions || k in ids
    ensures forall k :: k in questions ==> WithQuestions(questions, testId, inputs, ids)[k] == questions[k]
    ensures forall i :: 0 <= i < |ids| ==> WithQuestions(questions, testId, inputs, ids)[ids[i]] == Row(testId, inputs[i], ids[i])
  {
    if inputs != [] {
      var n := |inputs| - 1;
      var front, fids := inputs[..n], ids[..n];
      DistinctFront(ids);
      WithQuestionsShape(questions, testId, front, fids);
      assert ids == fids + [ids[n]];
      var all := WithQuestions(questions, testId, inputs, ids);
      forall i | 0 <= i < |ids| ensures all[ids[i]] == Row(testId, inputs[i], ids[i]) {
        if i < n {
          assert ids[i] == fids[i] && inputs[i] == front[i] && ids[i] != ids[n];
        }
      }
    }
  }

  /** Questions stored under `ids`, each the row of its input, are listed in input order. */
  lemma {:induction false} NewQuestionsListed(all: map<Id, Question>, testId: Id, inputs: seq<QuestionInput>, ids: seq<Id>)
    requires |ids| == |inputs|
    requires forall i :: 0 <= i < |ids| ==> ids[i] in all && all[ids[i]] == Row(testId, inputs[i], ids[i])
    ensures QuestionsOf(all, ids, testId) == AsServed(inputs, ids)
  {
    if ids != [] {
      var n := |ids| - 1;
      NewQuestionsListed(all, testId, inputs[..n], ids[..n]);
      assert AsServed(inputs, ids) == AsServed(inputs[..n], ids[..n]) + [Public(Row(testId, inputs[n], ids[n]))];
    }
  }

  /** POST `/`: a missing `questions` array fails at `questions.map` and
      nothing is written; a missing scalar field fails the insert; otherwise
      the test and its questions are inserted together. `testId`,
      `questionIds` and `now` are what the database assigns. */
  method CreateTest(db: Store, body: NewTest, testId: Id, questionIds: seq<Id>, now: int) returns (r: Response)
    requires db.Valid()
    requires testId !in db.tests
    requires body.questions.Some? ==> |questionIds| == |body.questions.value|
    requires Distinct(questionIds)
    requires forall i :: 0 <= i < |questionIds| ==> questionIds[i] !in db.questions
    modifies db`tests, db`questions, db`questionOrder
    ensures db.Valid()
    ensures CreateFails(body) ==>
      && r == Response(500, ErrorBody("Failed to create test"))
      && db.tests == old(db.tests) && db.questions == old(db.questions) && db.questionOrder == old(db.questionOrder)
    ensures !CreateFails(body) ==>
      var t := Test(testId, body.title.value, body.section.value, body.difficulty.value,
                    body.duration.value, body.totalMarks.value, now);
      var inputs := body.questions.value;
      && r == Response(201, TestBody(t))
      && db.tests == old(db.tests)[testId := t]
      && db.questions == WithQuestions(old(db.questions), testId, inputs, questionIds)
      && db.questionOrder == old(db.questionOrder) + questionIds
      // reading the test back gives its questions in input order, without their answers
      && GetTest(db, testId) == Response(200, TestDetail(t, AsServed(inputs, questionIds)))
  {
    if CreateFails(body) {
      return Response(500, ErrorBody("Failed to create test"));
    }
    var t := Test(testId, body.title.value, body.section.value, body.difficulty.value,
                  body.duration.value, body.totalMarks.value, now);
    Insert(db, t, body.questions.value, questionIds);
    r := Response(201, TestBody(t));
  }

  /** The nested create of POST `/`: the test and its questions, in one write. */
  method Insert(db: Store, t: Test, inputs: seq<QuestionInput>, questionIds: seq<Id>)
    requires db.Valid()
    requires t.id !in db.tests
    requires |questionIds| == |inputs| && Distinct(questionIds)
    requires forall i :: 0 <= i < |questionIds| ==> questionIds[i] !in db.questions
    modifies db`tests, db`questions, db`questionOrder
    ensures db.Valid()
    ensures db.tests == old(db.tests)[t.id := t]
    ensures db.questions == WithQuestions(old(db.questions), t.id, inputs, questionIds)
    ensures db.questionOrder == old(db.questionOrder) + questionIds
    ensures GetTest(db, t.id) == Response(200, TestDetail(t, AsServed(inputs, questionIds)))
  {
    InsertKeepsValid(db.tests, db.questions, db.questionOrder, t, inputs, questionIds);
    InsertedListing(db.tests, db.questions, db.questionOrder, t.id, inputs, questionIds);
    db.tests, db.questions, db.questionOrder :=
      db.tests[t.id := t], WithQuestions(db.questions, t.id, inputs, questionIds), db.questionOrder + questionIds;
    assert QuestionsValid(db.tests, db.questions, db.questionOrder);
    assert UsersValid(db.users) && AttemptsValid(db.attempts) && AnswersValid(db.questionAttempts) && AnalyticsValid(db.analytics);
  }

  /** The nested create keeps the store's question invariant: every question
      belongs to a stored test and the creation order lists each one once. */
  lemma InsertKeepsValid(tests: map<Id, Test>, questions: map<Id, Question>, order: seq<Id>,
                         t: Test, inputs: seq<QuestionInput>, ids: seq<Id>)
    requires QuestionsValid(tests, questions, order)
    requires t.id !in tests
    requires |ids| == |inputs| && Distinct(ids)
    requires forall i :: 0 <= i < |ids| ==> ids[i] !in questions
    ensures QuestionsValid(tests[t.id := t], WithQuestions(questions, t.id, inputs, ids), order + ids)
  {
    var newTests, all, allOrder := tests[t.id := t], WithQuestions(questions, t.id, inputs, ids), order + ids;
    WithQuestionsShape(questions, t.id, inputs, ids);
    assert forall i :: 0 <= i < |ids| ==> ids[i] !in order;
    AppendDistinct(order, ids);
    forall k | k in all ensures all[k].id == k && all[k].testId in newTests && k in allOrder {
      if k !in questions {
        var i :| 0 <= i < |ids| && ids[i] == k;
        assert all[k] == Row(t.id, inputs[i], ids[i]);
        assert allOrder[|order| + i] == k;
      }
    }
    forall i | 0 <= i < |allOrder| ensures allOrder[i] in all {
      if i >= |order| {
        assert allOrder[i] == ids[i - |order|];
      }
    }
  }

  /** The inputs as GET `/:id` serves them back under their new ids. */
  function AsServed(inputs: seq<QuestionInput>, ids: seq<Id>): (served: seq<PublicQuestion>)
    requires |ids| == |inputs|
    ensures |served| == |inputs|
    ensures forall i :: 0 <= i < |inputs| ==> served[i].id == ids[i] && served[i].questionText == inputs[i].questionText
  {
    seq(|inputs|, i requires 0 <= i < |inputs| =>
      PublicQuestion(ids[i], inputs[i].questionText, inputs[i].options, inputs[i].marks, inputs[i].explanation))
  }

  /** Inserting a new test's questions into a valid store: the test then
      lists exactly those questions, in input order, without their answers. */
  lemma InsertedListing(tests: map<Id, Test>, questions: map<Id, Question>, order: seq<Id>,
                        testId: Id, inputs: seq<QuestionInput>, ids: seq<Id>)
    requires QuestionsValid(tests, questions, order)
    requires testId !in tests
    requires |ids| == |inputs| && Distinct(ids)
    requires forall i :: 0 <= i < |ids| ==> ids[i] !in questions
    ensures QuestionsOf(WithQuestions(questions, testId, inputs, ids), order + ids, testId) == AsServed(inputs, ids)
  {
    var all := WithQuestions(questions, testId, inputs, ids);
    WithQuestionsShape(questions, testId, inputs, ids);
    forall i | 0 <= i < |order| ensures order[i] in all && all[order[i]].testId != testId {
      assert all[order[i]] == questions[order[i]];
    }
    QuestionsOfNone(all, order, testId);
    NewQuestionsListed(all, testId, inputs, ids);
    QuestionsOfAppend(all, order, ids, testId);
  }

  /** Two duplicate-free sequences with no common element concatenate without duplicates. */
  lemma AppendDistinct(a: seq<Id>, b: seq<Id>)
    requires Distinct(a) && Distinct(b)
    requires forall i :: 0 <= i < |b| ==> b[i] !in a
    ensures Distinct(a + b)
  {
    var ab := a + b;
    forall i, j | 0 <= i < j < |ab| ensures ab[i] != ab[j] {
      if j >= |a| {
        assert ab[j] == b[j - |a|];
        if i >= |a| {
          assert ab[i] == b[i - |a|];
        }
      }
    }
  }

  /** When POST `/` fails before anything is written: `questions.map` throws on a missing
    * list, and a missing scalar field is taken to be a required column without a default. */
  predicate CreateFails(body: NewTest): (fails: bool)
    ensures body.questions.None? ==> fails
  {
    || body.questions.None?
    || body.title.None? || body.section.None? || body.difficulty.None?
    || body.duration.None? || body.totalMarks.None?
  }

  /** POST `/` behind the fail-closed middleware. The handler never looks at
      the caller's role: any verified token, a guest's included, creates the test
      when the body is complete. */
  method PostTest(req: AuthRequest, jwt: Jwt, env: Option<string>, db: Store, body: NewTest,
                  testId: Id, questionIds: seq<Id>, now: int)
    requires db.Valid()
    requires testId !in db.tests
    requires body.questions.Some? ==> |questionIds| == |body.questions.value|
    requires Distinct(questionIds)
    requires forall i :: 0 <= i < |questionIds| ==> questionIds[i] !in db.questions
    modifies req, db`tests, db`questions, db`questionOrder
    ensures db.Valid()
    ensures
      var token := BearerToken(req.authorization);
      var decoded := if token.Some? then jwt.verify(token.value, VerifyingKey(env)) else None;
      && (decoded.None? ==>
            && db.tests == old(db.tests) && db.questions == old(db.questions) && db.questionOrder == old(db.questionOrder)
            && req.sent.Some? && req.sent.value.status == 401)
      && (decoded.Some? && CreateFails(body) ==>
            && db.tests == old(db.tests) && db.questions == old(db.questions) && db.questionOrder == old(db.questionOrder)
            && req.sent == Some(Response(500, ErrorBody("Failed to create test"))))
      && (decoded.Some? && !CreateFails(body) ==> testId in db.tests && req.sent.Some? && req.sent.value.status == 201)
  {
    var before := req.nextCalls;
    Authenticate(req, jwt, env);
    if req.nextCalls == before {
      return;
    }
    var r := CreateTest(db, body, testId, questionIds, now);
    req.sent := Some(r);
  }

  /** A guest's token, sent as `Bearer <token>`, passes the fail-closed
      middleware with its guest claims, so with `PostTest` a guest creates tests. */
  lemma GuestMayCreate(jwt: Jwt, env: Option<string>, guest: Claims)
    requires jwt.Sound() && guest.role == Some("guest")
    ensures var token := jwt.sign(guest, VerifyingKey(env));
      BearerToken(Some("Bearer " + token)) == Some(token)
      && jwt.verify(token, VerifyingKey(env)) == Some(guest)
  {
    var token := jwt.sign(guest, VerifyingKey(env));
    assert "Bearer " + token == "Bearer" + " " + token;
    BearerTokenOfHeader("Bearer", token);
  }
}
